=== FILE: README.md ===
# device-service core in Dafny

This project models the core of the device service. The service keeps the
devices of registered flats and polls a telemetry provider for their
measurements. It also reacts to lifecycle commands that arrive over Kafka.
The model covers three parts:

- **The device store.** The four MongoDB collections are RegisteredFlatDevices
  (flat rows), Device, Measurement and MeasurementStatus. Each is a map from
  document id to an immutable record. All four draw their ids from one
  counter. A `find` without a sort is taken to return documents in
  ascending id order (`DocumentStore`; see "## Left out").
- **The DeviceService workflows.** Each is a pure function from a store and an
  `Env` to a `Reply`. The `Env` holds the provider's answer per flatId, the
  clock, the call's `uuid()` values and the one store write (if any) that the
  store rejects. The `Reply` holds the new store, a result or failure, and the
  `DeviceCreated` events emitted. The workflows are:
  - the poll cycle `pollMeasurements` with `addMeasurements` (`Poller`, `PollerProperties`);
  - provisioning `createOne`;
  - decommission `deleteOne`;
  - the pull toggle `updateDevicePullState`;
  - the field update `updateOne` (`Workflows`, `WorkflowProperties`).
- **The inbound command pipeline:**
  - the class-validator rules of the three event classes (`EventValidation`);
  - the `KafkaEvent` decorator with its envelope check, action gate and validation (`KafkaDecorator`);
  - `EventHandler.handleEvent` with its routing, and the controller's composition of decorator and handler (`EventHandler`).

Five behaviours of the code shape the model:
- **The poll loop.** Nothing in the loop catches. A provider rejection, or a
  device whose room is missing from the snapshot, ends the whole cycle, and
  the status update is skipped (`PollerProperties.FetchFailureAbortsCycle`,
  `PollerProperties.MissingRoomAborts`).
- **The decorator's action gate.** The handler routes three actions, but the
  decorator lets only `CreateDevice` through. The delete and toggle branches
  of the handler cannot be reached from the bus
  (`EventHandler.BusReachesOnlyProvisioning`).
- **Decommission.** Measurement documents are deleted by the device's id.
  The documents provisioning created have their own ids, so they survive
  decommission as orphans (`WorkflowProperties.DecommissionOrphansProvisioning`).
- **Array payloads.** class-validator accepts an array as `data`, and the
  handler passes it to `createOne` as it is. The provider is then asked for
  the flat `undefined`, and no device is provisioned
  (`EventHandler.ArrayCommandProvisionsNothing`).
- **The payload's `pull`.** `createOne` hands the whole `data` to the flat
  insert, so a `pull` in the payload is stored through Mongoose's Boolean
  cast. A command can therefore switch polling on for the flat it
  provisions, or for each element of an array, although the toggle itself
  cannot be reached from the bus (`EventHandler.ObjectCommandPolledSet`).

## Model

| member | source | states |
|---|---|---|
| DocumentStore.Select | src/device/device.service.ts:32 | a `find` returns every matching document of the collection, once each, in ascending id order, and nothing else |
| DocumentStore.SelectFirst | src/device/device.service.ts:153 | a single-document query by flatId hits the matching document with the least id |
| DocumentStore.SelectNone | src/device/device.service.ts:159-162 | a query that no document matches finds nothing |
| DocumentStore.FlatIdsOf | src/device/device.service.ts:33-34 | the loop reads the flatId of each pull-enabled row, in row order |
| Telemetry.FindRoom | src/device/device.service.ts:232 | `rooms.find` yields the first room whose `roomNr` equals the device's, or nothing when no room matches (an absent `roomNr` matches none) |
| Telemetry.RoomNrs | src/device/device.service.ts:130 | the `CREATED` event lists the snapshot's room numbers, one per room, in order |
| Poller.AddToSet | src/device/device.service.ts:241-245 | `$addToSet` leaves the value present, adds nothing else, keeps the existing values as a prefix, and changes nothing when the value is already there |
| Poller.AppendIfPresent | src/device/device.service.ts:239-247 | a non-upserting `updateOne` changes only its target, never adds or removes a document, and puts the value into an existing target |
| Poller.Upsert | src/device/device.service.ts:259-261 | an upserting update adds the value to its target, creating the document without `deviceId` and holding just that value when it is missing |
| Poller.BulkAppend | src/device/device.service.ts:231-250 | the first pass keeps the set of documents, changes only targeted documents, and only by appending to `values` |
| Poller.UpsertEach | src/device/device.service.ts:252-262 | the second pass changes only targeted documents, by appending; when it succeeds every planned value is in its target; a failure is a store error |
| Poller.PlanAppends | src/device/device.service.ts:231-237 | one append per device of the flat, in device order, whose value comes from the room with that device's number; there is no plan exactly when some device's room is missing |
| Poller.AddMeasurements | src/device/device.service.ts:228-263 | only measurement documents keyed by the flat's device ids change, and only by growing; a missing room rejects with a TypeError before any write |
| Poller.VisitFlats | src/device/device.service.ts:33-36 | the loop changes only documents of devices of the visited flatIds, only by growing, and emits nothing |
| Poller.UpdateStatus | src/device/device.service.ts:38-59 | the status step leaves flats, devices and measurements alone, and a rejected write changes nothing |
| Poller.PollOrder | src/device/device.service.ts:32-33 | the cycle visits one flatId per pull-enabled row, in natural order |
| Poller.PollMeasurements | src/device/device.service.ts:29-60 | a cycle never changes flats or devices, only grows measurement values, and leaves the status untouched when it rejects |
| PollerProperties.AppendOnce | src/device/device.service.ts:239-261 | the single append both passes amount to keeps the document's `deviceId`, holds the value, and grows `values` by at most one |
| PollerProperties.BulkPointwise | src/device/device.service.ts:231-250 | with distinct targets in id order, each existing target ends up as exactly one set insertion of its value |
| PollerProperties.UpsertPointwise | src/device/device.service.ts:252-262 | without a store failure, every target ends up as exactly one set insertion of its value into what it held |
| PollerProperties.AddToSetIdempotent | src/device/device.service.ts:241-245 | inserting a value twice leaves what inserting it once leaves |
| PollerProperties.BothPassesPointwise | src/device/device.service.ts:228-263 | without a store failure, the bulk pass and then the upsert pass succeed, and each planned target ends as exactly one set insertion of its value into what it held before |
| PollerProperties.AddMeasurementsEffect | src/device/device.service.ts:228-263 | without a store failure and with every room present, `addMeasurements` succeeds and each device's document is exactly one set insertion of its room's value |
| PollerProperties.MissingRoomAborts | src/device/device.service.ts:232-234 | a device whose room is absent from the snapshot makes `addMeasurements` reject with a TypeError and change nothing |
| PollerProperties.AddMeasurementsIdempotent | src/device/device.service.ts:228-263 | running `addMeasurements` again with the same snapshot after it succeeded changes no document |
| PollerProperties.AddMeasurementsValid | src/device/device.service.ts:228-263 | `addMeasurements` creates no document outside the ids already handed out |
| PollerProperties.AllRoomsFound | src/device/device.service.ts:232-234 | a successful `addMeasurements` found a room for every device of the flat |
| PollerProperties.AddMeasurementsAppends | src/device/device.service.ts:228-263 | after a success, each device's document, keyed by the device id, holds that device's value |
| PollerProperties.VisitSplit | src/device/device.service.ts:33-36 | looping over `a + b` is looping over `a` and then, if that succeeded, over `b` |
| PollerProperties.VisitStopsAt | src/device/device.service.ts:33-35 | the loop ends at the first flat whose fetch rejects, with the store the earlier flats left |
| PollerProperties.VisitValid | src/device/device.service.ts:33-36 | the loop creates no document outside the ids already handed out |
| PollerProperties.VisitAppends | src/device/device.service.ts:33-36 | a successful loop fetched every listed flat, and every device of those flats holds its room's value |
| PollerProperties.VisitNoop | src/device/device.service.ts:33-36 | looping over flats whose devices already hold their values changes nothing |
| PollerProperties.PollOrderIsPulled | src/device/device.service.ts:32-33 | a flatId is visited exactly when it has a pull-enabled row |
| PollerProperties.PollAppends | src/device/device.service.ts:29-60 | a successful cycle fetched every flatId with a pull-enabled row, and every device of those flats holds its room's value |
| PollerProperties.PollFrame | src/device/device.service.ts:29-60 | however a cycle ends, it touches no measurement document other than those of devices of pull-enabled flatIds |
| PollerProperties.FirstStatusIsMin | src/device/device.service.ts:39-40 | `measurementStatus[0]` is the status document with the least id |
| PollerProperties.FetchFailureAbortsCycle | src/device/device.service.ts:29-60 | a provider rejection for the k-th visited flat ends the cycle with that failure; later flats and the status update are skipped |
| PollerProperties.PollCreatesStatus | src/device/device.service.ts:39-41 | the first successful cycle creates the single status document with `lastUpdate = now` and `timeDiffInMillis = 0` |
| PollerProperties.PollUpdatesStatus | src/device/device.service.ts:42-59 | a later cycle sets `lastUpdate = now` and `timeDiffInMillis = now − previous lastUpdate` (0 without one) on the first status document; all other status documents and the count are kept |
| PollerProperties.PollValid | src/device/device.service.ts:29-60 | a cycle creates no document outside the ids already handed out |
| PollerProperties.PollStampsFirstStatus | src/device/device.service.ts:39-59 | after a successful cycle the first status document carries the cycle's time |
| PollerProperties.ConsecutiveCyclesGap | src/device/device.service.ts:42-59 | after two successful cycles the first status document records the second time and the gap between the two |
| PollerProperties.RevisitNoop | src/device/device.service.ts:29-60 | a cycle over a store whose polled devices already hold their values appends nothing |
| PollerProperties.PollIdempotentOnMeasurements | src/device/device.service.ts:29-60 | rerunning a cycle with the same snapshots after a success leaves every measurement document as it was |
| PollerProperties.MeterTimestampDiscarded | src/device/device.service.ts:233-237 | the meter reading's timestamp plays no part: snapshots that differ only there lead to the same store and result |
| Workflows.InsertDevices | src/device/device.service.ts:95-108 | the device bulk insert puts the i-th room's device under the i-th fresh id and leaves the other devices alone |
| Workflows.InsertFlats | src/device/device.service.ts:92 | `create` on an array stores the i-th element's flatId and cast `pull` under the i-th fresh id, and leaves the other rows alone |
| Workflows.InsertMeasurements | src/device/device.service.ts:111-121 | one empty measurement document per inserted device, under fresh ids, whose `deviceId` is that device's id; other documents are left alone |
| EventHandler.CastPull | src/device/device.schema.ts:13-14 | the Boolean `pull` path with default `false`: a missing or null `pull` is stored as off, a boolean as itself; only `true`, `'true'`, `1`, `'1'` and `'yes'` give on; an object, an array or any value outside the two cast lists cannot be cast |
| Workflows.CreateOne | src/device/device.service.ts:86-150 | a fetch failure rejects with no event and no write; otherwise exactly one event is emitted, `CREATED` exactly when the result is `true`; the flat row, with the payload's cast `pull`, exists exactly when its insert went through, which a `pull` that cannot be cast prevents; the status is untouched |
| Workflows.CreateFromArray | src/device/device.service.ts:86-150 | with an array `data`: the provider is asked for the flat `undefined`, and its rejection rejects with no event and no write; otherwise exactly one event, with no flatId and no rooms, `CREATED` exactly when the result is `true`, which needs an empty snapshot; devices, measurements and the status are never touched; one row per element is stored exactly when every element is an object whose `pull` casts and the insert goes through |
| Workflows.DeleteOne | src/device/device.service.ts:157-175 | at most one flat row of the flatId goes; only devices of the flatId go; only measurement documents keyed by the flat's device ids go; whatever stays is unchanged; success is `true` |
| Workflows.UpdateDevicePullState | src/device/device.service.ts:152-155 | rejects only on a store failure; otherwise `true`; changes `pull` alone, on at most one row of the flatId; never inserts |
| Workflows.UpdateOne | src/device/device.service.ts:70-80 | succeeds exactly when the device exists and the write goes through, then sets only the DTO's fields and returns the updated device; NotFound otherwise |
| WorkflowProperties.ProvisionSuccess | src/device/device.service.ts:92-132 | a successful provisioning adds one flat row with the payload's cast `pull`, keeps the status, and emits `CREATED` with the room numbers in order |
| WorkflowProperties.ProvisionPolledSet | src/device/device.service.ts:92 | provisioning adds the flat to the polled flatIds exactly when its row is stored with `pull` on, and changes no other flat's polling |
| WorkflowProperties.UncastablePullStoresNothing | src/device/device.service.ts:92-147 | a `pull` that cannot be cast makes the flat insert reject: nothing is stored, one `FAILED` event is emitted, and the call settles with `false` |
| WorkflowProperties.ProvisionedDeviceIds | src/device/device.service.ts:95-108 | provisioning adds exactly one device per room, under the ids right after the flat row's |
| WorkflowProperties.ProvisionedDeviceContents | src/device/device.service.ts:95-108 | each new device is named `device-<flatId>-room-<roomNr>` and carries the room's number, the flatId and its uuid; old devices are unchanged |
| WorkflowProperties.ProvisionedMeasurementIds | src/device/device.service.ts:111-121 | provisioning adds exactly one measurement document per new device, under the ids after the devices' |
| WorkflowProperties.ProvisionedMeasurementContents | src/device/device.service.ts:111-121 | each new measurement document is empty and names its device in `deviceId`; old documents are unchanged |
| WorkflowProperties.ProvisionedFlatDevices | src/device/device.service.ts:99-102 | every new device belongs to the provisioned flatId |
| WorkflowProperties.ProvisionedValid | src/device/device.service.ts:92-121 | provisioning draws only fresh ids, adds its flat row with the given `pull` under the first of them, and leaves the status untouched |
| WorkflowProperties.ProvisionFailureKeepsWrites | src/device/device.service.ts:133-147 | a store failure inside the `try` emits one `FAILED` event with no rooms, settles with `false`, and keeps the writes made before it |
| WorkflowProperties.ReprovisionDuplicatesRow | src/device/device.schema.ts:10-11 | flatId is not unique: provisioning the same flat twice leaves two flat rows for it |
| WorkflowProperties.DeleteUnknownFlat | src/device/device.service.ts:159-162 | decommissioning a flatId without a row rejects with NotFound and changes nothing |
| WorkflowProperties.DeleteWithoutDevices | src/device/device.service.ts:159-169 | a flat without devices loses its first row and still rejects with NotFound |
| WorkflowProperties.DeleteSuccess | src/device/device.service.ts:157-175 | a complete decommission removes the first flat row, all devices of the flat and the documents keyed by their ids, and nothing else |
| WorkflowProperties.ProvisionedDocumentsNameDevices | src/device/device.service.ts:111-121 | provisioning's measurement documents have ids no device has, and each names a device of the flat |
| WorkflowProperties.DeleteLeavesDocumentsOf | src/device/device.service.ts:170-172 | decommission keeps documents that only name a device in `deviceId`, while it deletes the devices they name |
| WorkflowProperties.DecommissionOrphansProvisioning | src/device/device.service.ts:165-172 | after provisioning then decommissioning a flat, its devices are gone and every empty document provisioning made remains, naming a deleted device |
| WorkflowProperties.RepeatDeleteNotFound | src/device/device.service.ts:159-162 | once the only row of a flat is gone, a second decommission rejects with NotFound and changes nothing |
| WorkflowProperties.ToggleSetsFirstRow | src/device/device.service.ts:152-155 | the toggle sets `pull` on the first row of the flatId and changes nothing else |
| WorkflowProperties.ToggleDecidesPolling | src/device/device.service.ts:152-155 | with one row per flatId, the next cycle polls the flat exactly when the toggle turned `pull` on |
| WorkflowProperties.ToggleOffMissesDuplicate | src/device/device.service.ts:152-155 | with a second pull-enabled row for the flatId, switching it off leaves the flat polled |
| WorkflowProperties.InsertFlatsPulled | src/device/device.service.ts:92 | storing an array's rows adds to the pull-enabled flatIds exactly those of the elements whose `pull` is on |
| WorkflowProperties.ArrayProvisioningPolledSet | src/device/device.service.ts:86-150 | `createOne` on an array leaves the devices of the flat `undefined` as they were; the pull-enabled flatIds grow, once the rows are stored, by exactly those of elements with `pull` on, and the polled devices by exactly the devices already registered under them |
| WorkflowProperties.UpdateOneIdempotent | src/device/device.service.ts:70-80 | updating an existing device a second time with the same DTO changes nothing more and returns the same device |
| EventValidation.FlatIdOf | src/device/events/create-device.event.ts:6-10 | a payload that passed the intended rule has a non-empty string `flatId` |
| EventValidation.PullOf | src/device/events/state-device.event.ts:10-12 | a payload that passed the intended toggle rule has a boolean `pull` |
| EventValidation.CreateRuleExactly | src/device/events/create-device.event.ts:6-17 | class-validator passes the create event exactly when `data` is an object whose `flatId` is a non-empty string, or an array each of whose elements passes the nested check |
| EventValidation.IntendedCreateRule | src/device/events/create-device.event.ts:6-17 | the intended rule holds exactly when `data` is one object whose `flatId` is a non-empty string |
| EventValidation.RejectedPayloads | src/device/events/create-device.event.ts:6-17 | a missing `data`, or a `flatId` that is `''`, null, missing or not a string, is rejected by every rule |
| EventValidation.DeleteRuleIsCreateRule | src/device/events/delete-device.event.ts:6-17 | the delete rule accepts exactly the payloads the create rule accepts |
| EventValidation.StateRuleExactly | src/device/events/state-device.event.ts:5-20 | every toggle payload passes the create rule, and on an object `data` the toggle rule is the create rule plus a boolean `pull` |
| EventValidation.NestedPullImpliesFlat | src/device/events/state-device.event.ts:5-20 | a value passing the toggle's nested check passes the create's, at any depth of array nesting |
| EventValidation.PullFalseAccepted | src/device/events/state-device.event.ts:10-12 | `pull: false` passes, since not-empty rejects only `''`, null and undefined |
| EventValidation.PullMustBeBoolean | src/device/events/state-device.event.ts:12 | a `pull` given as a string or a number is rejected |
| EventValidation.AsWrittenAgreesOnObjects | src/device/events/create-device.event.ts:13-16 | the intended rule accepts a subset of what the rule as written accepts, and the two agree when `data` is an object |
| EventValidation.EmptyArrayDataAccepted | src/device/events/create-device.event.ts:13-16 | as written, `data: []` passes although it has no `flatId`; the intended rule rejects it |
| EventValidation.ArrayDataAsWritten | src/device/events/create-device.event.ts:14 | as written, an array `data` passes exactly when each element passes |
| KafkaDecorator.Decorate | src/kafka/event.decorator.ts:8-34 | an accepted message is its own `value`, has action `CreateDevice` and passes class-validator's create rule; its `data` is an object, which then meets the intended rule, or an array |
| KafkaDecorator.MalformedEnvelopeRejected | src/kafka/event.decorator.ts:12-14 | a falsy message, `value`, `topic` or `value.type` is rejected as an invalid message, whatever the action |
| KafkaDecorator.OnlyCreatePasses | src/kafka/event.decorator.ts:20-24 | a well-formed message whose action is not `CreateDevice` is rejected as an unknown action, carrying that action |
| KafkaDecorator.CreateValidatedExactly | src/kafka/event.decorator.ts:26-32 | a well-formed `CreateDevice` message fails validation exactly when class-validator's create rule fails, arrays included, and is otherwise returned as its `value` |
| KafkaDecorator.AcceptedExactly | src/kafka/event.decorator.ts:10-32 | the decorator accepts exactly the well-formed `CreateDevice` messages whose payload passes class-validator's create rule |
| KafkaDecorator.DecorateIntended | src/kafka/event.decorator.ts:8-34 | the decorator with the intended rule accepts only one object `data` with a non-empty string `flatId` |
| KafkaDecorator.IntendedRefinesDecorate | src/kafka/event.decorator.ts:26-32 | everything the intended decorator accepts the decorator accepts alike, and the two agree on every message whose `data` is not an array |
| KafkaDecorator.EmptyArrayMessageAccepted | src/kafka/event.decorator.ts:26-32 | a well-formed `CreateDevice` message with `data: []` passes the decorator, and the intended decorator rejects it |
| KafkaDecorator.DeleteNeverDelivered | src/kafka/event.decorator.ts:20-24 | a delete command with a valid payload is rejected as an unknown action |
| EventHandler.Route | src/device/events/event.handler.ts:14-24 | each action goes to its own call, and the branches exclude each other; `CreateDevice` with an array `data` passes the rows of its elements on, an object element giving its flatId and cast `pull` and a nested array none; an object `data` passes its flatId and cast `pull` to create; a rejection is a TypeError exactly when the action is routed, which happens when `data` is null or missing, and otherwise the action is unsupported |
| EventHandler.HandleEvent | src/device/events/event.handler.ts:14-37 | an unsupported action rejects, changes nothing and emits nothing; only an unsupported action is rejected as unsupported |
| EventHandler.RoutesToWorkflow | src/device/events/event.handler.ts:14-37 | `CreateDevice` runs `createOne` on the flatId and cast `pull` of an object `data` and `createOne` on the array for an array `data`, `DeleteDevice` runs `deleteOne(data.flatId)`, and `PullStateChangeDevice` runs `updateDevicePullState(data.flatId, data.pull)` |
| EventHandler.NullDataThrows | src/device/events/event.handler.ts:26-36 | a routed action whose `data` is null or missing throws before any workflow runs |
| EventHandler.CaseSensitiveMatch | src/device/events/event.handler.ts:15-23 | action names are matched exactly, so `createDevice` is unsupported |
| EventHandler.OnCommand | src/device/device.controller.ts:46-59 | a topic handler rejects with a decorator rejection exactly when the decorator rejects; otherwise it settles as `handleEvent` does, and then only a provider rejection can make it fail |
| EventHandler.EventTyped | src/device/events/event.handler.ts:26-37 | every event the decorator accepts, array `data` included, has the shape the handler's casts assume |
| EventHandler.BusReachesOnlyProvisioning | src/device/device.controller.ts:46-59 | every message the pipeline accepts runs `createOne`: on the non-empty flatId and cast `pull` of an object `data`, or on the rows of an array `data` |
| EventHandler.ObjectCommandPolledSet | src/device/device.controller.ts:46-59 | an accepted command with an object `data` adds its flatId to the polled flatIds exactly when the row is stored with a `pull` that casts to on, and changes no other flat's polling |
| EventHandler.ArrayCommandProvisionsNothing | src/device/device.controller.ts:46-59 | an accepted command with an array `data` adds no device and no measurement document and emits no event naming a flat; the polled flatIds grow, once the rows are stored, by exactly those of elements whose `pull` casts to on, and the polled devices by exactly the devices already registered under them |
| EventHandler.IntendedBusReachesOnlyProvisioning | src/kafka/event.decorator.ts:26-32 | with the intended decorator, every accepted message runs `createOne` on the non-empty flatId and cast `pull` of its one `data` object |
| EventHandler.DeleteAndToggleUnreachable | src/kafka/event.decorator.ts:20-24 | no accepted message carries the delete or toggle action |

## Left out

- **The telemetry HTTP call** (`getRoomsMeasurements`). It is network I/O. Its outcome is the input `Env.fetch`: either the `rooms` array or a rejection.
- **Kafka `emit` and the topic prefix from the config.** Outcome events are returned as values, with no topic.
- **`uuid()`, `Date.now()` and `new Date`.** They are the inputs `Env.uuid` and `Env.now`, in milliseconds. A date taken from the snapshot is kept as its millisecond number.
- **The `@Interval` timer, overlapping cycles and races between workflows.** These are concurrency; every call runs alone.
- **Natural order.** MongoDB does not promise any order for a `find` without a sort. The model assumes ascending id order, which is insertion order. That assumption decides which row `updateOne({ flatId })` and `deleteOne({ flatId })` hit and which document is `measurementStatus[0]`.
- Poller.VisitFlats: the provider gives one answer per flatId within a cycle. The source makes one HTTP call per pull-enabled row. For a flat provisioned twice, it could get two different answers, or a success and a rejection; the model cannot express that.
- **Store failures.** Each call may have one rejected write, `Env.failAt`; reads never fail.
  - A failing bulk write is taken to write nothing, so partial bulk results are not modelled.
  - `create` on an array saves each document with its own `save`, and Mongoose may run those saves concurrently. A rejection there is also taken to write nothing.
  - Schema validation is modelled only where the code always violates it: elements without `flatId` in `createOne` on an array, and devices without `flatId`. Mongoose's `required` check on an empty string is left out.
  - MongoDB's rejection of an empty bulk write is not derived from the input; `failAt` can select that write. Its main consequence is left out with it: a flat whose `pull` is on but that has no devices, as after an empty snapshot or an array command, makes `addMeasurements` issue `bulkWrite([])` on every cycle. If MongoDB rejects that write, every poll cycle aborts; the model lets the cycle succeed unless `failAt` selects that write.
- **Collation, indexes and the `createdAt`/`updatedAt` timestamps.** These are MongoDB specifics. The collation (`en_US`, strength 1 with `caseLevel`) matches flatIds case-sensitively but ignores diacritics. The model matches flatIds by exact equality.
- **ObjectId parsing in `updateOne`.** A malformed id string throws in the source; the model takes the id as a document id.
- **Other properties of the create payload.** `createOne` passes the whole `data` object to the flat insert. The flat schema declares only `flatId` and `pull`, and Mongoose's strict mode drops the rest, so the model carries those two. A `null` `pull` is stored as off (`EventHandler.CastPull`): Mongoose stores it as null, which no `pull: true` query matches either. Mongoose's Boolean cast lists are outside the repository; the model follows the lists Mongoose documents.
- **`getMinMaxMeterValuePerRoomInFlat`.** It is a read-only aggregate over JavaScript numbers and is not routed anywhere.
- **`findAll`, `findOne`, `readMeasurements`, `getMeasurementStatus`, the controller's guards and filters, module wiring, the DTO classes, logging, auth and credentials.** These are thin reads, infrastructure or types.
- **The base class `Event`.** src/device/events/event.ts is not part of this model. Its properties are taken to carry no validation rules.
- **The decorator's validation errors.** The errors class-validator lists are left out; a validation failure is a single `ValidationFailed`.
- **`EventHandler.HandleEvent` and `EventHandler.Route` on mistyped payloads.** They require `DataTyped`. For a routed action whose `data` can be read, `data` must be an object whose `flatId` (and for the toggle `pull`) has the type the service signature declares. For `CreateDevice` it may instead be an array whose elements are such objects or nested arrays. The source does no runtime check there, and what it would do with a number as flatId depends on JavaScript coercion. Every event the decorator accepts meets the requirement (`EventHandler.EventTyped`).
- **JSON numbers.** Numbers in messages are Dafny reals. They are compared for truthiness, and in the Boolean cast of `pull` (`EventHandler.CastPull`) for equality with 1 and 0, as Mongoose's cast lists do. The snapshot's readings are JavaScript numbers; the model writes them as integers, which it only copies and compares for equality.

## Findings

| source | as written | input that shows it | evidently intended | confidence | as-written member | corrected member |
|---|---|---|---|---|---|---|
| src/device/events/create-device.event.ts:13-16 | `@IsNotEmpty() @ValidateNested()` on `data` also accepts an array, checking each element, so an empty array passes; the same holds for the delete and toggle events | a `CreateDevice` message whose value is `{ type: 'command', action: 'CreateDevice', data: [] }` passes the decorator; `createOne` then reads an undefined `flatId` and asks the provider for the flat `undefined` | `data` must be one object with a non-empty string `flatId`, as the declared type `data: Device` says | medium, not executed | KafkaDecorator.EmptyArrayMessageAccepted | EventHandler.IntendedBusReachesOnlyProvisioning |

=== FILE: document_store.dfy ===
/** The four collections of the device service as one immutable store value.

    Every document has an `_id`; all collections draw their ids from the one
    counter `next`, as ObjectIds are unique across collections. A `find`
    without a sort returns documents in natural order, which the model takes
    to be ascending id, i.e. insertion order. */
module DocumentStore {
  import opened Wrappers

  type Id = nat

  /** A RegisteredFlatDevices row. `flatId` is required and indexed but not
      unique; `pull` is optional in the schema with default `false`, so every
      stored row carries a value. */
  datatype RegisteredFlat = RegisteredFlat(flatId: string, pull: bool)

  /** A Device row: `name`, `deviceId` and `flatId` are required, `roomNr` is
      optional. */
  datatype Device = Device(name: string, deviceId: string, roomNr: Option<int>, flatId: string)

  /** One entry of `Measurement.values`. The subdocument has no `_id`, so two
      entries are equal exactly when all three fields are; `timestamp` is a
      date in milliseconds. */
  datatype MeasurementValue = MeasurementValue(timestamp: int, temperature: int, meterValue: int)

  /** A Measurement document; `deviceId` is optional. */
  datatype Measurement = Measurement(deviceId: Option<Id>, values: seq<MeasurementValue>)

  /** The MeasurementStatus document; both fields are optional. */
  datatype MeasurementStatus = MeasurementStatus(lastUpdate: Option<int>, timeDiffInMillis: Option<int>)

  datatype Store = Store(
    flats: map<Id, RegisteredFlat>,
    devices: map<Id, Device>,
    measurements: map<Id, Measurement>,
    statuses: map<Id, MeasurementStatus>,
    next: Id)

  /** Every id in use was handed out before `next`. */
  predicate Valid(s: Store) {
    && (forall k :: k in s.flats ==> k < s.next)
    && (forall k :: k in s.devices ==> k < s.next)
    && (forall k :: k in s.measurements ==> k < s.next)
    && (forall k :: k in s.statuses ==> k < s.next)
  }

  /** What the Boolean `pull` path makes of the value a `create` hands it:
      the value stored, or `Uncastable` when the cast fails and the insert
      rejects. */
  datatype PullCast = Cast(value: bool) | Uncastable

  /** The ids in `[lo, hi)` of the documents of `m` that match `p`, in natural
      order. */
  function Select<T>(m: map<Id, T>, p: T -> bool, lo: nat, hi: nat): (r: seq<Id>)
    ensures forall i :: 0 <= i < |r| ==> lo <= r[i] < hi && r[i] in m && p(m[r[i]])
    ensures forall i, j :: 0 <= i < j < |r| ==> r[i] < r[j]
    ensures forall k :: lo <= k < hi && k in m && p(m[k]) ==> k in r
    decreases hi - lo
  {
    if lo >= hi then []
    else if lo in m && p(m[lo]) then [lo] + Select(m, p, lo + 1, hi)
    else Select(m, p, lo + 1, hi)
  }

  /** A query no document of `[lo, hi)` matches finds nothing. */
  lemma {:induction false} SelectNone<T>(m: map<Id, T>, p: T -> bool, lo: nat, hi: nat)
    requires forall k :: lo <= k < hi && k in m ==> !p(m[k])
    ensures Select(m, p, lo, hi) == []
    decreases hi - lo
  {
    if lo < hi {
      SelectNone(m, p, lo + 1, hi);
    }
  }

  /** A single-document query finds the matching document with the least id. */
  lemma {:induction false} SelectFirst<T>(m: map<Id, T>, p: T -> bool, lo: nat, hi: nat, k: Id)
    requires lo <= k < hi && k in m && p(m[k])
    requires forall j :: lo <= j < k && j in m ==> !p(m[j])
    ensures Select(m, p, lo, hi) != [] && Select(m, p, lo, hi)[0] == k
    decreases k - lo
  {
    if lo < k {
      SelectFirst(m, p, lo + 1, hi, k);
    }
  }

  /** `find({ pull: true })` on RegisteredFlatDevices. */
  function PullEnabledRows(s: Store): seq<Id> {
    Select(s.flats, (f: RegisteredFlat) => f.pull, 0, s.next)
  }

  /** `find({ flatId })` on RegisteredFlatDevices. */
  function FlatRows(s: Store, flatId: string): seq<Id> {
    Select(s.flats, (f: RegisteredFlat) => f.flatId == flatId, 0, s.next)
  }

  /** `find({ flatId })` on Device. */
  function DeviceRows(s: Store, flatId: string): seq<Id> {
    Select(s.devices, (d: Device) => d.flatId == flatId, 0, s.next)
  }

  /** `find()` on MeasurementStatus. */
  function StatusRows(s: Store): seq<Id> {
    Select(s.statuses, (_: MeasurementStatus) => true, 0, s.next)
  }

  /** The ids of the devices of a flat, as a set. */
  function DevicesOf(s: Store, flatId: string): set<Id> {
    set k | k in s.devices && s.devices[k].flatId == flatId
  }

  /** The flatIds that have at least one pull-enabled row. */
  function PulledFlatIds(s: Store): set<string> {
    set k | k in s.flats && s.flats[k].pull :: s.flats[k].flatId
  }

  /** The devices a poll cycle reaches: those of a flatId with a pull-enabled row. */
  function PolledDevices(s: Store): set<Id> {
    set k | k in s.devices && s.devices[k].flatId in PulledFlatIds(s)
  }

  /** The flatIds of the given flat rows, in the same order. */
  function FlatIdsOf(flats: map<Id, RegisteredFlat>, rows: seq<Id>): (r: seq<string>)
    requires forall i :: 0 <= i < |rows| ==> rows[i] in flats
    ensures |r| == |rows|
    ensures forall i :: 0 <= i < |rows| ==> r[i] == flats[rows[i]].flatId
  {
    if rows == [] then [] else [flats[rows[0]].flatId] + FlatIdsOf(flats, rows[1..])
  }
}

=== FILE: event_handler.dfy ===
/** `EventHandler.handleEvent`: routing an event by its `action` to exactly
    one DeviceService workflow, and the controller's composition of the
    `KafkaEvent` decorator with the handler. */
module EventHandler {
  import opened Wrappers
  import opened Json
  import opened DocumentStore
  import opened ServiceTypes
  import opened Workflows
  import opened EventValidation
  import opened KafkaDecorator
  import opened WorkflowProperties

  /** The service call an event turns into. `createOne` receives `data` as it
      is, so an array `data` makes its own call. */
  datatype Call =
    | CreateCall(flatId: string, pullCast: PullCast)
    | CreateFromArrayCall(rows: seq<Option<Element>>)
    | DeleteCall(flatId: string)
    | PullCall(flatId: string, pull: bool)

  predicate IsAction(action: Option<Json>, name: string) {
    action == Some(JStr(name))
  }

  /** One of the three actions the handler knows. */
  predicate Routed(action: Option<Json>) {
    IsAction(action, "CreateDevice") || IsAction(action, "DeleteDevice") || IsAction(action, "PullStateChangeDevice")
  }

  /** `null` or undefined, whose properties cannot be read. */
  predicate Nullish(v: Option<Json>) {
    v == None || v == Some(JNull)
  }

  /** An element of an array `data` is an object with a string `flatId`, or
      a nested array. */
  predicate ElementTyped(v: Json) {
    v.JArr? || (v.JObj? && IsString(Field(v.fields, "flatId")))
  }

  /** The handler's casts hold: for a routed action whose `data` can be read,
      `data` is an object with a string `flatId`, and for the toggle a
      boolean `pull`, as the service signatures declare; for `CreateDevice`,
      `data` may instead be an array of typed elements. */
  predicate DataTyped(event: Event) {
    var action := Field(event, "action");
    var data := Field(event, "data");
    Routed(action) && !Nullish(data) ==>
      if IsAction(action, "CreateDevice") && data.value.JArr? then
        forall i :: 0 <= i < |data.value.elems| ==> ElementTyped(data.value.elems[i])
      else
        && data.value.JObj?
        && IsString(Field(data.value.fields, "flatId"))
        && (IsAction(action, "PullStateChangeDevice") ==> IsBoolean(Field(data.value.fields, "pull")))
  }

  /** The constants the Boolean path casts to `true` and to `false`. */
  const TrueLike: set<Json> := {JBool(true), JStr("true"), JNum(1.0), JStr("1"), JStr("yes")}
  const FalseLike: set<Json> := {JBool(false), JStr("false"), JNum(0.0), JStr("0"), JStr("no")}

  /** What the Boolean `pull` path, default `false`, makes of the value
      `create` hands it. Undefined takes the default. Mongoose casts only
      the `TrueLike` and `FalseLike` constants; anything else cannot be cast
      and the insert rejects. `null` is stored as null, which no
      `pull: true` query matches, so it is stored here as off. */
  function CastPull(v: Option<Json>): (r: PullCast)
    ensures Nullish(v) ==> r == Cast(false)
    ensures v.Some? && v.value.JBool? ==> r == Cast(v.value.b)
    ensures v.Some? && (v.value.JArr? || v.value.JObj?) ==> r == Uncastable
    ensures r == Cast(true) <==> v.Some? && v.value in TrueLike
    ensures r == Uncastable <==> v.Some? && v.value != JNull && v.value !in TrueLike && v.value !in FalseLike
  {
    if Nullish(v) then Cast(false)
    else if v.value in TrueLike then Cast(true)
    else if v.value in FalseLike then Cast(false)
    else Uncastable
  }

  /** The flat row `create` makes of an array element: its `flatId` and cast
      `pull` for an object, none for a nested array, which has no `flatId`
      of its own. */
  function ElementRow(v: Json): (row: Option<Element>)
    requires ElementTyped(v)
    ensures row.Some? <==> v.JObj?
    ensures row.Some? ==> Field(v.fields, "flatId") == Some(JStr(row.value.flatId))
    ensures row.Some? ==> row.value.pull == CastPull(Field(v.fields, "pull"))
  {
    if v.JObj? then Some(Element(v.fields["flatId"].str, CastPull(Field(v.fields, "pull")))) else None
  }

  /** The rows of an array `data`, element by element. */
  function Rows(elems: seq<Json>): (rows: seq<Option<Element>>)
    requires forall i :: 0 <= i < |elems| ==> ElementTyped(elems[i])
    ensures |rows| == |elems|
    ensures forall i :: 0 <= i < |elems| ==> rows[i] == ElementRow(elems[i])
  {
    seq(|elems|, i requires 0 <= i < |elems| => ElementRow(elems[i]))
  }

  /** The branch of `handleEvent` an event takes. Reading a property of a
      null or undefined `data` throws: in `createOne`'s first line for
      create, in the private handlers for delete and the toggle. */
  function Route(event: Event): (r: Result<Call, Failure>)
    requires DataTyped(event)
    ensures r.Ok? ==> Routed(Field(event, "action")) && !Nullish(Field(event, "data"))
    ensures r.Ok? && r.value.CreateCall? <==>
              IsAction(Field(event, "action"), "CreateDevice") && !Nullish(Field(event, "data")) && !event["data"].JArr?
    ensures r.Ok? && r.value.CreateFromArrayCall? <==>
              IsAction(Field(event, "action"), "CreateDevice") && !Nullish(Field(event, "data")) && event["data"].JArr?
    ensures r.Ok? && r.value.DeleteCall? <==> IsAction(Field(event, "action"), "DeleteDevice") && !Nullish(Field(event, "data"))
    ensures r.Ok? && r.value.PullCall? <==> IsAction(Field(event, "action"), "PullStateChangeDevice") && !Nullish(Field(event, "data"))
    ensures r.Err? ==> r.error == TypeError || r.error == Unsupported(Field(event, "action"))
    ensures r.Err? ==> (r.error == TypeError <==> Routed(Field(event, "action")))
    ensures r.Ok? && !r.value.CreateFromArrayCall? ==> Field(event["data"].fields, "flatId") == Some(JStr(r.value.flatId))
    ensures r.Ok? && r.value.CreateCall? ==> r.value.pullCast == CastPull(Field(event["data"].fields, "pull"))
    ensures r.Ok? && r.value.CreateFromArrayCall? ==>
              && |r.value.rows| == |event["data"].elems|
              && forall i :: 0 <= i < |r.value.rows| ==>
                   && (r.value.rows[i].Some? <==> event["data"].elems[i].JObj?)
                   && (r.value.rows[i].Some? ==> Field(event["data"].elems[i].fields, "flatId") == Some(JStr(r.value.rows[i].value.flatId)))
                   && (r.value.rows[i].Some? ==> r.value.rows[i].value.pull == CastPull(Field(event["data"].elems[i].fields, "pull")))
  {
    var action := Field(event, "action");
    var data := Field(event, "data");
    if !Routed(action) then Err(Unsupported(action))
    else if Nullish(data) then Err(TypeError)
    else if IsAction(action, "CreateDevice") && data.value.JArr? then Ok(CreateFromArrayCall(Rows(data.value.elems)))
    else
      var flatId := data.value.fields["flatId"].str;
      if IsAction(action, "CreateDevice") then Ok(CreateCall(flatId, CastPull(Field(data.value.fields, "pull"))))
      else if IsAction(action, "DeleteDevice") then Ok(DeleteCall(flatId))
      else Ok(PullCall(flatId, data.value.fields["pull"].b))
  }

  /** The workflow a call runs. */
  function Run(s: Store, call: Call, env: Env): Reply<bool> {
    match call
    case CreateCall(flatId, pullCast) => CreateOne(s, flatId, pullCast, env)
    case CreateFromArrayCall(rows) => CreateFromArray(s, rows, env)
    case DeleteCall(flatId) => DeleteOne(s, flatId, env)
    case PullCall(flatId, pull) => UpdateDevicePullState(s, flatId, pull, env)
  }

  /** `handleEvent(event)`. */
  function HandleEvent(s: Store, event: Event, env: Env): (r: Reply<bool>)
    requires DataTyped(event)
    ensures !Routed(Field(event, "action")) ==> r == Reply(s, Err(Unsupported(Field(event, "action"))), [])
    ensures r.result.Err? && r.result.error.Unsupported? ==> !Routed(Field(event, "action"))
  {
    match Route(event)
    case Err(e) => Reply(s, Err(e), [])
    case Ok(call) => Run(s, call, env)
  }

  /** Each routed action with readable `data` runs its own workflow, and
      only that one. */
  lemma RoutesToWorkflow(s: Store, event: Event, env: Env)
    requires DataTyped(event)
    requires Routed(Field(event, "action")) && !Nullish(Field(event, "data"))
    ensures var action := Field(event, "action");
            && (IsAction(action, "CreateDevice") && event["data"].JObj? ==>
                  HandleEvent(s, event, env) == CreateOne(s, event["data"].fields["flatId"].str, CastPull(Field(event["data"].fields, "pull")), env))
            && (IsAction(action, "CreateDevice") && event["data"].JArr? ==>
                  HandleEvent(s, event, env) == CreateFromArray(s, Rows(event["data"].elems), env))
            && (IsAction(action, "DeleteDevice") ==>
                  HandleEvent(s, event, env) == DeleteOne(s, event["data"].fields["flatId"].str, env))
            && (IsAction(action, "PullStateChangeDevice") ==>
                  HandleEvent(s, event, env) == UpdateDevicePullState(s, event["data"].fields["flatId"].str, event["data"].fields["pull"].b, env))
  {
  }

  /** A routed action whose `data` is null or missing throws a TypeError
      before any workflow runs. */
  lemma NullDataThrows(s: Store, event: Event, env: Env)
    requires Routed(Field(event, "action")) && Nullish(Field(event, "data"))
    ensures DataTyped(event)
    ensures HandleEvent(s, event, env) == Reply(s, Err(TypeError), [])
  {
  }

  /** Action names are matched exactly: a case variant is unsupported. */
  lemma CaseSensitiveMatch(s: Store, event: Event, env: Env)
    requires Field(event, "action") == Some(JStr("createDevice"))
    ensures DataTyped(event)
    ensures HandleEvent(s, event, env) == Reply(s, Err(Unsupported(Some(JStr("createDevice")))), [])
  {
  }

  /** The controller's three topic handlers: `KafkaEvent` on the message,
      then `handleEvent` on the event it returns. A topic handler rejects
      with the decorator's rejection, or with the failure `handleEvent`
      settles with, which the reply carries. Past the decorator the only
      such failure is the provider's. */
  function OnCommand(s: Store, message: Option<Json>, env: Env): (r: Result<Reply<bool>, Rejection>)
    ensures r.Ok? ==> Decorate(message).Ok?
    ensures r.Err? ==> Decorate(message) == Err(r.error)
    ensures r.Ok? && r.value.result.Err? ==> r.value.result.error == FetchError
  {
    match Decorate(message)
    case Err(rejection) => Err(rejection)
    case Ok(event) =>
      EventTyped(event);
      Ok(HandleEvent(s, event, env))
  }

  /** An event the decorator accepts meets the handler's casts. */
  lemma EventTyped(event: Event)
    requires CreateDeviceEventValid(event) && Field(event, "action") == Some(JStr("CreateDevice"))
    ensures DataTyped(event)
  {
    var data := event["data"];
    if data.JArr? {
      forall i | 0 <= i < |data.elems|
        ensures ElementTyped(data.elems[i])
      {
        NestedIsObjectOrArray(data.elems[i], FlatOnly);
      }
    }
  }

  /** From the bus, only provisioning is reachable: every message the
      pipeline does not reject runs `createOne` on its payload, with the
      payload's non-empty flatId and cast `pull` when `data` is an object,
      and on the rows of `data` when it is an array. */
  lemma BusReachesOnlyProvisioning(s: Store, message: Option<Json>, env: Env)
    requires OnCommand(s, message, env).Ok?
    ensures var event := Decorate(message).value;
            && (event["data"].JObj? || event["data"].JArr?)
            && (event["data"].JObj? ==>
                  && FlatIdOf(event) != ""
                  && OnCommand(s, message, env).value == CreateOne(s, FlatIdOf(event), CastPull(Field(event["data"].fields, "pull")), env))
            && (event["data"].JArr? ==>
                  && DataTyped(event)
                  && OnCommand(s, message, env).value == CreateFromArray(s, Rows(event["data"].elems), env))
  {
    var event := Decorate(message).value;
    EventTyped(event);
    RoutesToWorkflow(s, event, env);
  }

  /** A command whose `data` is an object turns polling on for its flatId
      exactly when the row is stored with a `pull` that casts to true; no
      other flat's polling changes. */
  lemma ObjectCommandPolledSet(s: Store, message: Option<Json>, env: Env)
    requires Valid(s)
    requires OnCommand(s, message, env).Ok? && Decorate(message).value["data"].JObj?
    ensures var event := Decorate(message).value;
            var flatId := FlatIdOf(event);
            var r := OnCommand(s, message, env).value;
            PulledFlatIds(r.store)
            == PulledFlatIds(s)
               + (if env.fetch(flatId).Fetched? && !Fails(env, 0) && CastPull(Field(event["data"].fields, "pull")) == Cast(true)
                  then {flatId} else {})
  {
    var event := Decorate(message).value;
    BusReachesOnlyProvisioning(s, message, env);
    ProvisionPolledSet(s, FlatIdOf(event), CastPull(Field(event["data"].fields, "pull")), env);
  }

  /** A command whose `data` is an array provisions no device and no
      measurement document, and its outcome event never names a flat. The
      poll gains, once the rows are stored, the flatIds whose element had a
      `pull` that casts to true, with the devices already registered under
      them, and nothing else. */
  lemma ArrayCommandProvisionsNothing(s: Store, message: Option<Json>, env: Env)
    requires Valid(s)
    requires OnCommand(s, message, env).Ok? && Decorate(message).value["data"].JArr?
    ensures DataTyped(Decorate(message).value)
    ensures var event := Decorate(message).value;
            var rows := Rows(event["data"].elems);
            var added := if env.fetch(Undefined).Fetched? && !Fails(env, 0) && AllStorable(rows) then PulledElements(rows) else {};
            var r := OnCommand(s, message, env).value;
            && r.store.devices == s.devices
            && r.store.measurements == s.measurements
            && PulledFlatIds(r.store) == PulledFlatIds(s) + added
            && PolledDevices(r.store) == PolledDevices(s) + (set k | k in s.devices && s.devices[k].flatId in added)
            && forall i :: 0 <= i < |r.emitted| ==> r.emitted[i].flatId == None
  {
    var event := Decorate(message).value;
    BusReachesOnlyProvisioning(s, message, env);
    ArrayProvisioningPolledSet(s, Rows(event["data"].elems), env);
  }

  /** With the intended decorator, every accepted message provisions the
      non-empty flatId of its one `data` object. */
  lemma IntendedBusReachesOnlyProvisioning(s: Store, message: Option<Json>, env: Env)
    requires DecorateIntended(message).Ok?
    ensures var event := DecorateIntended(message).value;
            && FlatIdOf(event) != ""
            && OnCommand(s, message, env) == Ok(CreateOne(s, FlatIdOf(event), CastPull(Field(event["data"].fields, "pull")), env))
  {
    IntendedRefinesDecorate(message);
    BusReachesOnlyProvisioning(s, message, env);
  }

  /** No message the decorator accepts carries the delete or toggle action,
      although the handler routes both. */
  lemma DeleteAndToggleUnreachable(message: Option<Json>)
    requires Decorate(message).Ok?
    ensures !IsAction(Field(Decorate(message).value, "action"), "DeleteDevice")
    ensures !IsAction(Field(Decorate(message).value, "action"), "PullStateChangeDevice")
  {
  }
}

=== FILE: event_validation.dfy ===
/** The class-validator rules of the three inbound events, as predicates on
    the plain message object.

    Each event class declares one property `data` marked `@IsNotEmpty()` and
    `@ValidateNested()`, whose nested class holds the per-action rules. The
    base class `Event` is taken to declare no rules of its own. */
module EventValidation {
  import opened Wrappers
  import opened Json

  /** An event as the handler receives it: the properties of the message's
      `value`. */
  type Event = map<string, Json>

  /** `@IsNotEmpty()`: anything but `''`, `null` and `undefined`. */
  predicate IsNotEmpty(v: Option<Json>) {
    v != None && v != Some(JNull) && v != Some(JStr(""))
  }

  /** `@IsString()`. */
  predicate IsString(v: Option<Json>) {
    v.Some? && v.value.JStr?
  }

  /** `@IsBoolean()`. */
  predicate IsBoolean(v: Option<Json>) {
    v.Some? && v.value.JBool?
  }

  /** `fields.key`, undefined when absent. */
  function Field(fields: map<string, Json>, key: string): (r: Option<Json>)
    ensures r.Some? <==> key in fields
    ensures r.Some? ==> r.value == fields[key]
  {
    if key in fields then Some(fields[key]) else None
  }

  /** The nested `Device` classes: create and delete declare only `flatId`,
      the pull toggle adds `pull`. */
  datatype Shape = FlatOnly | FlatAndPull

  /** The rules of the nested class on the properties of one object. */
  predicate ShapeRules(fields: map<string, Json>, shape: Shape) {
    var flatId := Field(fields, "flatId");
    && IsNotEmpty(flatId) && IsString(flatId)
    && (shape == FlatAndPull ==>
          var pull := Field(fields, "pull");
          IsNotEmpty(pull) && IsBoolean(pull))
  }

  /** `@ValidateNested()` as class-validator applies it: an object is checked
      against the nested class, an array element by element (so any array of
      valid objects, including the empty one, passes), any other value is an
      error. */
  predicate NestedAsWritten(v: Json, shape: Shape)
    decreases v
  {
    match v
    case JObj(fields) => ShapeRules(fields, shape)
    case JArr(elems) => forall i :: 0 <= i < |elems| ==> NestedAsWritten(elems[i], shape)
    case _ => false
  }

  /** The `data` rules of an event class as the decorators evaluate them. */
  predicate PayloadValidAsWritten(event: Event, shape: Shape) {
    var data := Field(event, "data");
    IsNotEmpty(data) && data.Some? && NestedAsWritten(data.value, shape)
  }

  /** The `data` rules as the declared type `data: Device` intends them:
      `data` is one object that satisfies the nested class. Nothing in the
      service evaluates this rule; it is the corrected counterpart of
      `PayloadValidAsWritten`. */
  predicate PayloadValid(event: Event, shape: Shape) {
    var data := Field(event, "data");
    data.Some? && data.value.JObj? && ShapeRules(data.value.fields, shape)
  }

  /** `validate` on a `CreateDeviceEvent`. */
  predicate CreateDeviceEventValid(event: Event) {
    PayloadValidAsWritten(event, FlatOnly)
  }

  /** `validate` on a `DeleteDeviceEvent`. */
  predicate DeleteDeviceEventValid(event: Event) {
    PayloadValidAsWritten(event, FlatOnly)
  }

  /** `validate` on a `StateDeviceEvent`. */
  predicate StateDeviceEventValid(event: Event) {
    PayloadValidAsWritten(event, FlatAndPull)
  }

  /** `data.flatId` of an event that passed the intended rule. */
  function FlatIdOf(event: Event): (flatId: string)
    requires PayloadValid(event, FlatOnly)
    ensures flatId != ""
    ensures Field(event["data"].fields, "flatId") == Some(JStr(flatId))
  {
    event["data"].fields["flatId"].str
  }

  /** `data.pull` of an event that passed the intended toggle rule. */
  function PullOf(event: Event): (pull: bool)
    requires PayloadValid(event, FlatAndPull)
    ensures Field(event["data"].fields, "pull") == Some(JBool(pull))
  {
    event["data"].fields["pull"].b
  }

  /** The create rule holds exactly when `data` is an object whose `flatId`
      is a non-empty string, or an array each of whose elements passes the
      nested check. */
  lemma CreateRuleExactly(event: Event)
    ensures CreateDeviceEventValid(event) <==>
              && "data" in event
              && (event["data"].JObj? || event["data"].JArr?)
              && (event["data"].JObj? ==>
                    && "flatId" in event["data"].fields
                    && event["data"].fields["flatId"].JStr?
                    && event["data"].fields["flatId"].str != "")
              && (event["data"].JArr? ==>
                    forall i :: 0 <= i < |event["data"].elems| ==> NestedAsWritten(event["data"].elems[i], FlatOnly))
  {
  }

  /** The intended create rule holds exactly when `data` is an object whose
      `flatId` is a non-empty string. */
  lemma IntendedCreateRule(event: Event)
    ensures PayloadValid(event, FlatOnly) <==>
              && "data" in event && event["data"].JObj?
              && "flatId" in event["data"].fields
              && event["data"].fields["flatId"].JStr?
              && event["data"].fields["flatId"].str != ""
  {
  }

  /** A missing `data`, and a `flatId` that is `''`, null, missing or not a
      string, are each rejected by every rule. */
  lemma RejectedPayloads(event: Event, shape: Shape)
    ensures "data" !in event ==> !PayloadValid(event, shape) && !PayloadValidAsWritten(event, shape)
    ensures "data" in event && event["data"].JObj? ==>
              var flatId := Field(event["data"].fields, "flatId");
              (flatId == None || flatId == Some(JNull) || flatId == Some(JStr("")) || !IsString(flatId))
                ==> !PayloadValid(event, shape) && !PayloadValidAsWritten(event, shape)
  {
  }

  /** The delete rule accepts exactly the payloads the create rule accepts. */
  lemma DeleteRuleIsCreateRule(event: Event)
    ensures DeleteDeviceEventValid(event) <==> CreateDeviceEventValid(event)
  {
  }

  /** Every toggle payload also satisfies the create rule, and on an object
      `data` the toggle rule is the create rule plus a boolean `pull`. */
  lemma StateRuleExactly(event: Event)
    ensures StateDeviceEventValid(event) ==> CreateDeviceEventValid(event)
    ensures "data" in event && event["data"].JObj? ==>
              (StateDeviceEventValid(event) <==>
                 && CreateDeviceEventValid(event)
                 && "pull" in event["data"].fields
                 && event["data"].fields["pull"].JBool?)
  {
    if StateDeviceEventValid(event) {
      NestedPullImpliesFlat(event["data"]);
    }
  }

  /** A value that passes the nested toggle check passes the nested create
      check, at every depth of array nesting. */
  lemma {:induction false} NestedPullImpliesFlat(v: Json)
    ensures NestedAsWritten(v, FlatAndPull) ==> NestedAsWritten(v, FlatOnly)
    decreases v
  {
    if v.JArr? && NestedAsWritten(v, FlatAndPull) {
      forall i | 0 <= i < |v.elems|
        ensures NestedAsWritten(v.elems[i], FlatOnly)
      {
        NestedPullImpliesFlat(v.elems[i]);
      }
    }
  }

  /** What passes the nested check is an object or an array. */
  lemma NestedIsObjectOrArray(v: Json, shape: Shape)
    requires NestedAsWritten(v, shape)
    ensures v.JObj? || v.JArr?
  {
  }

  /** `pull: false` passes: not-empty rejects only `''`, null and undefined. */
  lemma PullFalseAccepted(flatId: string)
    requires flatId != ""
    ensures StateDeviceEventValid(map["data" := JObj(map["flatId" := JStr(flatId), "pull" := JBool(false)])])
  {
    var data := map["flatId" := JStr(flatId), "pull" := JBool(false)];
    assert Field(data, "pull") == Some(JBool(false));
    assert Field(data, "flatId") == Some(JStr(flatId));
  }

  /** A `pull` given as a string or a number is rejected. */
  lemma PullMustBeBoolean(event: Event)
    requires "data" in event && event["data"].JObj?
    requires "pull" in event["data"].fields
    requires event["data"].fields["pull"].JStr? || event["data"].fields["pull"].JNum?
    ensures !StateDeviceEventValid(event)
  {
  }

  /** Every payload the intended rule accepts also passes the rule as
      written, and on an object `data` the two agree. */
  lemma AsWrittenAgreesOnObjects(event: Event, shape: Shape)
    ensures PayloadValid(event, shape) ==> PayloadValidAsWritten(event, shape)
    ensures "data" in event && event["data"].JObj? ==>
              (PayloadValidAsWritten(event, shape) <==> PayloadValid(event, shape))
  {
  }

  /** The rules as written accept `data: []`, an event without any `flatId`,
      which the intended rule rejects. */
  lemma EmptyArrayDataAccepted(shape: Shape)
    ensures PayloadValidAsWritten(map["data" := JArr([])], shape)
    ensures !PayloadValid(map["data" := JArr([])], shape)
  {
    assert Field(map["data" := JArr([])], "data") == Some(JArr([]));
  }

  /** An array `data` passes as written exactly when every element passes. */
  lemma {:induction false} ArrayDataAsWritten(elems: seq<Json>, shape: Shape)
    ensures PayloadValidAsWritten(map["data" := JArr(elems)], shape) <==>
              forall i :: 0 <= i < |elems| ==> NestedAsWritten(elems[i], shape)
  {
    assert Field(map["data" := JArr(elems)], "data") == Some(JArr(elems));
  }
}

=== FILE: json.dfy ===
/** JSON values as they arrive on the message bus, with the two pieces of
    JavaScript semantics the inbound pipeline relies on: property access and
    truthiness. */
module Json {
  import opened Wrappers

  datatype Json =
    | JNull
    | JBool(b: bool)
    | JNum(n: real)
    | JStr(str: string)
    | JArr(elems: seq<Json>)
    | JObj(fields: map<string, Json>)

  /** `v.key` for a value that is known not to be null or undefined: only an
      object has own properties, every other value yields undefined. */
  function Prop(v: Option<Json>, key: string): (r: Option<Json>)
    ensures r.Some? <==> v.Some? && v.value.JObj? && key in v.value.fields
    ensures r.Some? ==> r.value == v.value.fields[key]
  {
    match v
    case Some(JObj(fields)) => if key in fields then Some(fields[key]) else None
    case _ => None
  }

  /** JavaScript truthiness; `None` is undefined. */
  predicate Truthy(v: Option<Json>) {
    match v
    case None => false
    case Some(JNull) => false
    case Some(JBool(b)) => b
    case Some(JNum(n)) => n != 0.0
    case Some(JStr(s)) => s != ""
    case Some(JArr(_)) => true
    case Some(JObj(_)) => true
  }

  /** `v === s` for a string literal `s`. */
  predicate StrictEquals(v: Option<Json>, s: string) {
    v == Some(JStr(s))
  }
}

=== FILE: kafka_decorator.dfy ===
/** The `KafkaEvent` parameter decorator: the envelope check, the action gate
    and the validation that turn an inbound Kafka message into the event the
    controller hands to the event handler. */
module KafkaDecorator {
  import opened Wrappers
  import opened Json
  import opened EventValidation

  /** Why the decorator throws: reading `.value` of a null or undefined
      message, the "Invalid kafka event message" RpcException, the "Unknown
      event action" RpcException with the action read, or the RpcException
      carrying the validation errors. */
  datatype Rejection =
    | MessageTypeError
    | InvalidMessage
    | UnknownAction(action: Option<Json>)
    | ValidationFailed

  /** `KafkaEvent` on the RPC data `message` (`None` is undefined). */
  function Decorate(message: Option<Json>): (r: Result<Event, Rejection>)
    ensures r.Ok? ==> CreateDeviceEventValid(r.value)
    ensures r.Ok? ==> r.value["data"].JObj? || r.value["data"].JArr?
    ensures r.Ok? && r.value["data"].JObj? ==> PayloadValid(r.value, FlatOnly)
    ensures r.Ok? ==> Field(r.value, "action") == Some(JStr("CreateDevice"))
    ensures r.Ok? ==> Some(JObj(r.value)) == Prop(message, "value")
  {
    if message == None || message == Some(JNull) then Err(MessageTypeError)
    else
      var value := Prop(message, "value");
      if !Truthy(message) || !Truthy(value) || !Truthy(Prop(message, "topic")) || !Truthy(Prop(value, "type")) then
        Err(InvalidMessage)
      else if StrictEquals(Prop(value, "action"), "CreateDevice") then
        var event := value.value.fields;
        if CreateDeviceEventValid(event) then Ok(event) else Err(ValidationFailed)
      else Err(UnknownAction(Prop(value, "action")))
  }

  /** The envelope of a message that is not null or undefined is in order:
      `value`, `topic` and `value.type` are all truthy. */
  predicate EnvelopeOk(message: Option<Json>) {
    Truthy(message) && Truthy(Prop(message, "value")) && Truthy(Prop(message, "topic"))
    && Truthy(Prop(Prop(message, "value"), "type"))
  }

  /** A malformed envelope is rejected as such whatever its action and data:
      the envelope is checked before the action. */
  lemma MalformedEnvelopeRejected(message: Option<Json>)
    requires message != None && message != Some(JNull)
    requires !EnvelopeOk(message)
    ensures Decorate(message) == Err(InvalidMessage)
  {
  }

  /** Only `CreateDevice` passes the gate: a well-formed message with any
      other action, `DeleteDevice` and `PullStateChangeDevice` included, is
      rejected with that action. */
  lemma OnlyCreatePasses(message: Option<Json>)
    requires EnvelopeOk(message)
    ensures var action := Prop(Prop(message, "value"), "action");
            action != Some(JStr("CreateDevice")) ==> Decorate(message) == Err(UnknownAction(action))
  {
  }

  /** A well-formed `CreateDevice` message is rejected for its payload exactly
      when the `CreateDeviceEvent` rules fail, and otherwise is accepted as
      its own `value`. */
  lemma CreateValidatedExactly(message: Option<Json>)
    requires EnvelopeOk(message)
    requires Prop(Prop(message, "value"), "action") == Some(JStr("CreateDevice"))
    ensures var event := Prop(message, "value").value.fields;
            && (Decorate(message) == Err(ValidationFailed) <==> !CreateDeviceEventValid(event))
            && (Decorate(message).Ok? <==> CreateDeviceEventValid(event))
            && (Decorate(message).Ok? ==> Decorate(message).value == event)
  {
  }

  /** The decorator accepts exactly the well-formed `CreateDevice` messages
      whose payload is valid. */
  lemma AcceptedExactly(message: Option<Json>)
    ensures Decorate(message).Ok? <==>
              && message != None && message != Some(JNull)
              && EnvelopeOk(message)
              && Prop(Prop(message, "value"), "action") == Some(JStr("CreateDevice"))
              && CreateDeviceEventValid(Prop(message, "value").value.fields)
  {
    if Decorate(message).Ok? {
      assert Prop(message, "value").Some?;
    }
  }

  /** The envelope of a Kafka message with the given `value` and `topic`. */
  function Message(value: Json, topic: string): (m: Option<Json>)
    ensures Prop(m, "value") == Some(value) && Prop(m, "topic") == Some(JStr(topic))
  {
    Some(JObj(map["value" := value, "topic" := JStr(topic)]))
  }

  /** A delete command with a valid payload, on any non-empty topic, never
      gets through. */
  lemma DeleteNeverDelivered(flatId: string, topic: string)
    requires flatId != "" && topic != ""
    ensures var value := JObj(map["type" := JStr("command"), "action" := JStr("DeleteDevice"),
                                  "data" := JObj(map["flatId" := JStr(flatId)])]);
            && DeleteDeviceEventValid(value.fields)
            && Decorate(Message(value, topic)) == Err(UnknownAction(Some(JStr("DeleteDevice"))))
  {
    var value := JObj(map["type" := JStr("command"), "action" := JStr("DeleteDevice"),
                          "data" := JObj(map["flatId" := JStr(flatId)])]);
    var m := Message(value, topic);
    assert Prop(m, "value") == Some(value);
    assert Prop(Some(value), "type") == Some(JStr("command"));
    assert Prop(Some(value), "action") == Some(JStr("DeleteDevice"));
    assert Field(value.fields, "data") == Some(JObj(map["flatId" := JStr(flatId)]));
    assert Field(map["flatId" := JStr(flatId)], "flatId") == Some(JStr(flatId));
  }

  /** The decorator with the intended rule in its validation step: `data`
      must be one object with a non-empty string `flatId`. */
  function DecorateIntended(message: Option<Json>): (r: Result<Event, Rejection>)
    ensures r.Ok? ==> PayloadValid(r.value, FlatOnly) && FlatIdOf(r.value) != ""
    ensures r.Ok? ==> r.value["data"].JObj?
    ensures r.Ok? ==> Field(r.value, "action") == Some(JStr("CreateDevice"))
    ensures r.Ok? ==> Some(JObj(r.value)) == Prop(message, "value")
  {
    if message == None || message == Some(JNull) then Err(MessageTypeError)
    else
      var value := Prop(message, "value");
      if !Truthy(message) || !Truthy(value) || !Truthy(Prop(message, "topic")) || !Truthy(Prop(value, "type")) then
        Err(InvalidMessage)
      else if StrictEquals(Prop(value, "action"), "CreateDevice") then
        var event := value.value.fields;
        if PayloadValid(event, FlatOnly) then Ok(event) else Err(ValidationFailed)
      else Err(UnknownAction(Prop(value, "action")))
  }

  /** Whatever the intended decorator accepts, the decorator accepts too, and
      the two decide alike on every message whose `data` is not an array. */
  lemma IntendedRefinesDecorate(message: Option<Json>)
    ensures DecorateIntended(message).Ok? ==> Decorate(message) == DecorateIntended(message)
    ensures (var data := Prop(Prop(message, "value"), "data"); !(data.Some? && data.value.JArr?)) ==>
              Decorate(message) == DecorateIntended(message)
  {
    var value := Prop(message, "value");
    if value.Some? && value.value.JObj? {
      AsWrittenAgreesOnObjects(value.value.fields, FlatOnly);
    }
  }

  /** A well-formed `CreateDevice` message with `data: []` passes the
      decorator, which hands on an event without any `flatId`; the intended
      decorator rejects it. */
  lemma EmptyArrayMessageAccepted(topic: string)
    requires topic != ""
    ensures var value := JObj(map["type" := JStr("command"), "action" := JStr("CreateDevice"), "data" := JArr([])]);
            && Decorate(Message(value, topic)) == Ok(value.fields)
            && DecorateIntended(Message(value, topic)) == Err(ValidationFailed)
  {
    var value := JObj(map["type" := JStr("command"), "action" := JStr("CreateDevice"), "data" := JArr([])]);
    var m := Message(value, topic);
    assert Prop(m, "value") == Some(value);
    assert Prop(Some(value), "type") == Some(JStr("command"));
    assert Prop(Some(value), "action") == Some(JStr("CreateDevice"));
    assert Field(value.fields, "data") == Some(JArr([]));
  }
}

=== FILE: poller.dfy ===
/** The poll cycle of DeviceService: `pollMeasurements` and `addMeasurements`.

    A cycle reads the pull-enabled flat rows, and for each in natural order
    fetches a snapshot and appends one measurement value per device of that
    flatId; then it maintains the MeasurementStatus document. Nothing inside
    the loop catches: the first rejection ends the cycle. */
module Poller {
  import opened Wrappers
  import opened DocumentStore
  import opened Telemetry
  import opened ServiceTypes

  /** One `$addToSet` of `value` into the `values` of the document `target`. */
  datatype Append = Append(target: Id, value: MeasurementValue)

  /** `$addToSet` on an array: set insertion that keeps the existing order. */
  function AddToSet(values: seq<MeasurementValue>, x: MeasurementValue): (r: seq<MeasurementValue>)
    ensures x in r
    ensures values <= r
    ensures forall y :: y in r ==> y in values || y == x
    ensures x in values ==> r == values
    ensures |r| <= |values| + 1
  {
    if x in values then values else values + [x]
  }

  /** The documents an update may touch. */
  function Targets(ops: seq<Append>): set<Id> {
    set i | 0 <= i < |ops| :: ops[i].target
  }

  /** Every document of `ms` survives in `ms'` with its deviceId, and its
      values only grow at the end. */
  ghost predicate Grows(ms: map<Id, Measurement>, ms': map<Id, Measurement>) {
    forall k :: k in ms ==> k in ms' && ms'[k].deviceId == ms[k].deviceId && ms[k].values <= ms'[k].values
  }

  /** No document outside `touched` appears, disappears or changes. */
  ghost predicate Frame(ms: map<Id, Measurement>, ms': map<Id, Measurement>, touched: set<Id>) {
    forall k :: k !in touched ==> (k in ms <==> k in ms') && (k in ms ==> ms'[k] == ms[k])
  }

  lemma GrowsTrans(a: map<Id, Measurement>, b: map<Id, Measurement>, c: map<Id, Measurement>)
    requires Grows(a, b) && Grows(b, c)
    ensures Grows(a, c)
  {
    forall k | k in a
      ensures k in c && c[k].deviceId == a[k].deviceId && a[k].values <= c[k].values
    {
      PrefixTrans(a[k].values, b[k].values, c[k].values);
    }
  }

  lemma PrefixTrans<T>(x: seq<T>, y: seq<T>, z: seq<T>)
    requires x <= y && y <= z
    ensures x <= z
  {
    assert x == y[..|x|];
    assert y == z[..|y|];
    assert z[..|y|][..|x|] == z[..|x|];
  }

  lemma FrameTrans(a: map<Id, Measurement>, b: map<Id, Measurement>, c: map<Id, Measurement>, t1: set<Id>, t2: set<Id>, t: set<Id>)
    requires Frame(a, b, t1) && Frame(b, c, t2) && t1 + t2 <= t
    ensures Frame(a, c, t)
  {
  }

  /** `updateOne({ _id: target }, { $addToSet })` without upsert: a missing
      document stays missing. */
  function AppendIfPresent(ms: map<Id, Measurement>, a: Append): (r: map<Id, Measurement>)
    ensures r.Keys == ms.Keys
    ensures Grows(ms, r) && Frame(ms, r, {a.target})
    ensures a.target in ms ==> a.value in r[a.target].values
  {
    if a.target in ms then ms[a.target := ms[a.target].(values := AddToSet(ms[a.target].values, a.value))]
    else ms
  }

  /** `update({ _id: target }, { $addToSet }, { upsert: true })`: a missing
      document is inserted with this one value and no deviceId. */
  function Upsert(ms: map<Id, Measurement>, a: Append): (r: map<Id, Measurement>)
    ensures r.Keys == ms.Keys + {a.target}
    ensures Grows(ms, r) && Frame(ms, r, {a.target})
    ensures a.value in r[a.target].values
    ensures a.target !in ms ==> r[a.target] == Measurement(None, [a.value])
  {
    if a.target in ms then AppendIfPresent(ms, a) else ms[a.target := Measurement(None, [a.value])]
  }

  lemma TargetsCons(ops: seq<Append>)
    requires ops != []
    ensures Targets(ops) == {ops[0].target} + Targets(ops[1..])
  {
    assert forall i :: 1 <= i < |ops| ==> ops[i].target == ops[1..][i - 1].target;
  }

  lemma KeptInGrowth(ms: map<Id, Measurement>, ms': map<Id, Measurement>, k: Id, x: MeasurementValue)
    requires Grows(ms, ms') && k in ms && x in ms[k].values
    ensures k in ms' && x in ms'[k].values
  {
    var i :| 0 <= i < |ms[k].values| && ms[k].values[i] == x;
    assert ms'[k].values[i] == x;
  }

  /** The first pass of `addMeasurements`: one bulkWrite of non-upserting
      appends. */
  function BulkAppend(ms: map<Id, Measurement>, ops: seq<Append>): (r: map<Id, Measurement>)
    ensures r.Keys == ms.Keys
    ensures Grows(ms, r) && Frame(ms, r, Targets(ops))
    decreases |ops|
  {
    if ops == [] then ms
    else
      var m1 := AppendIfPresent(ms, ops[0]);
      var r := BulkAppend(m1, ops[1..]);
      TargetsCons(ops);
      GrowsTrans(ms, m1, r);
      FrameTrans(ms, m1, r, {ops[0].target}, Targets(ops[1..]), Targets(ops));
      r
  }

  /** The second pass of `addMeasurements`: one upserting update per device,
      the `j`-th being store write `w + j`. It settles with the number of
      writes used so far. */
  function UpsertEach(s: Store, ops: seq<Append>, env: Env, w: nat): (r: Reply<nat>)
    ensures r.store == s.(measurements := r.store.measurements)
    ensures Grows(s.measurements, r.store.measurements)
    ensures Frame(s.measurements, r.store.measurements, Targets(ops))
    ensures r.result.Ok? ==> r.result.value == w + |ops|
    ensures r.result.Ok? ==> forall i :: 0 <= i < |ops| ==>
              ops[i].target in r.store.measurements && ops[i].value in r.store.measurements[ops[i].target].values
    ensures r.result.Err? ==> r.result.error == StoreError && env.failAt.Some?
    ensures r.emitted == []
    decreases |ops|
  {
    if ops == [] then Reply(s, Ok(w), [])
    else if Fails(env, w) then Reply(s, Err(StoreError), [])
    else
      var s1 := s.(measurements := Upsert(s.measurements, ops[0]));
      var r := UpsertEach(s1, ops[1..], env, w + 1);
      TargetsCons(ops);
      GrowsTrans(s.measurements, s1.measurements, r.store.measurements);
      FrameTrans(s.measurements, s1.measurements, r.store.measurements, {ops[0].target}, Targets(ops[1..]), Targets(ops));
      if r.result.Ok? then
        KeptInGrowth(s1.measurements, r.store.measurements, ops[0].target, ops[0].value);
        assert forall i :: 1 <= i < |ops| ==> ops[i] == ops[1..][i - 1];
        r
      else r
  }

  /** The value each device gets, in device order, or `None` as soon as a
      device's room is missing from the snapshot (where the source reads a
      property of undefined). */
  function PlanAppends(devices: map<Id, Device>, rows: seq<Id>, rooms: seq<RoomMeasurement>): (r: Option<seq<Append>>)
    requires forall i :: 0 <= i < |rows| ==> rows[i] in devices
    ensures r.Some? ==> |r.value| == |rows|
    ensures r.Some? ==> forall i :: 0 <= i < |rows| ==>
              r.value[i].target == rows[i] && ValueFor(rooms, devices[rows[i]].roomNr) == Some(r.value[i].value)
    ensures r.None? <==> exists i :: 0 <= i < |rows| && ValueFor(rooms, devices[rows[i]].roomNr).None?
  {
    if rows == [] then Some([])
    else match ValueFor(rooms, devices[rows[0]].roomNr)
      case None => None
      case Some(v) =>
        match PlanAppends(devices, rows[1..], rooms)
        case None =>
          ghost var i :| 0 <= i < |rows[1..]| && ValueFor(rooms, devices[rows[1..][i]].roomNr).None?;
          assert rows[i + 1] == rows[1..][i];
          None
        case Some(tail) =>
          assert forall i :: 1 <= i < |rows| ==> rows[i] == rows[1..][i - 1];
          Some([Append(rows[0], v)] + tail)
  }

  /** `addMeasurements(flatId, rooms)`: both passes over the devices of the
      flat, starting at store write `w`. */
  function AddMeasurements(s: Store, flatId: string, rooms: seq<RoomMeasurement>, env: Env, w: nat): (r: Reply<nat>)
    ensures r.store == s.(measurements := r.store.measurements)
    ensures Grows(s.measurements, r.store.measurements)
    ensures Frame(s.measurements, r.store.measurements, DevicesOf(s, flatId))
    ensures r.result.Err? ==> r.result.error in {TypeError, StoreError}
    ensures r.result.Err? && r.result.error == TypeError ==> r.store == s
    ensures r.emitted == []
  {
    var rows := DeviceRows(s, flatId);
    match PlanAppends(s.devices, rows, rooms)
    case None => Reply(s, Err(TypeError), [])
    case Some(ops) =>
      assert Targets(ops) <= DevicesOf(s, flatId);
      if Fails(env, w) then Reply(s, Err(StoreError), [])
      else UpsertEach(s.(measurements := BulkAppend(s.measurements, ops)), ops, env, w + 1)
  }

  /** The loop of `pollMeasurements` over the flatIds of the pull-enabled rows. */
  function VisitFlats(s: Store, flatIds: seq<string>, env: Env, w: nat): (r: Reply<nat>)
    ensures r.store == s.(measurements := r.store.measurements)
    ensures Grows(s.measurements, r.store.measurements)
    ensures Frame(s.measurements, r.store.measurements,
                  set k | k in s.devices && s.devices[k].flatId in flatIds)
    ensures r.emitted == []
    decreases |flatIds|
  {
    if flatIds == [] then Reply(s, Ok(w), [])
    else match env.fetch(flatIds[0])
      case FetchFailed => Reply(s, Err(FetchError), [])
      case Fetched(rooms) =>
        var a := AddMeasurements(s, flatIds[0], rooms, env, w);
        assert DevicesOf(s, flatIds[0]) <= set k | k in s.devices && s.devices[k].flatId in flatIds;
        if a.result.Err? then a
        else
          var r := VisitFlats(a.store, flatIds[1..], env, a.result.value);
          GrowsTrans(s.measurements, a.store.measurements, r.store.measurements);
          FrameTrans(s.measurements, a.store.measurements, r.store.measurements, DevicesOf(s, flatIds[0]),
                     set k | k in s.devices && s.devices[k].flatId in flatIds[1..],
                     set k | k in s.devices && s.devices[k].flatId in flatIds);
          r
  }

  /** The status step of `pollMeasurements`: create the status document when
      there is none, otherwise overwrite both fields of the first one. */
  function UpdateStatus(s: Store, env: Env, w: nat): (r: Reply<()>)
    ensures r.store.flats == s.flats && r.store.devices == s.devices
    ensures r.store.measurements == s.measurements
    ensures r.result.Err? ==> r.store == s
    ensures r.emitted == []
  {
    if Fails(env, w) then Reply(s, Err(StoreError), [])
    else
      var rows := StatusRows(s);
      if rows == [] then
        Reply(s.(statuses := s.statuses[s.next := MeasurementStatus(Some(env.now), Some(0))], next := s.next + 1), Ok(()), [])
      else
        var gap := match s.statuses[rows[0]].lastUpdate
          case Some(t) => env.now - t
          case None => 0;
        Reply(s.(statuses := s.statuses[rows[0] := MeasurementStatus(Some(env.now), Some(gap))]), Ok(()), [])
  }

  /** The flatIds a cycle visits: those of the pull-enabled rows, in natural
      order, one entry per row. */
  function PollOrder(s: Store): (r: seq<string>)
    ensures |r| == |PullEnabledRows(s)|
    ensures forall i :: 0 <= i < |r| ==> r[i] == s.flats[PullEnabledRows(s)[i]].flatId
  {
    FlatIdsOf(s.flats, PullEnabledRows(s))
  }

  /** `pollMeasurements()`: one cycle. */
  function PollMeasurements(s: Store, env: Env): (r: Reply<()>)
    ensures r.store.flats == s.flats && r.store.devices == s.devices
    ensures Grows(s.measurements, r.store.measurements)
    ensures r.result.Err? ==> r.store.statuses == s.statuses
    ensures r.emitted == []
  {
    var v := VisitFlats(s, PollOrder(s), env, 0);
    match v.result
    case Err(e) => Reply(v.store, Err(e), [])
    case Ok(w) => UpdateStatus(v.store, env, w)
  }
}

=== FILE: poller_properties.dfy ===
/** What one poll cycle promises: which measurement documents it appends to,
    with which value, that it adds each value at most once, that a rerun
    with the same snapshot changes nothing, that the first rejection ends the
    cycle, and how the status document tracks the time between cycles. */
module PollerProperties {
  import opened Wrappers
  import opened DocumentStore
  import opened Telemetry
  import opened ServiceTypes
  import opened Poller

  /** The single idempotent append of a value to a device's document that
      the two passes of `addMeasurements` amount to: set insertion into the
      existing document, or a new document without deviceId. */
  function AppendOnce(ms: map<Id, Measurement>, a: Append): (m: Measurement)
    ensures a.value in m.values
    ensures a.target in ms ==> m.deviceId == ms[a.target].deviceId && ms[a.target].values <= m.values
    ensures a.target in ms ==> |m.values| <= |ms[a.target].values| + 1
  {
    if a.target in ms then ms[a.target].(values := AddToSet(ms[a.target].values, a.value))
    else Measurement(None, [a.value])
  }

  ghost predicate Increasing(ops: seq<Append>) {
    forall i, j :: 0 <= i < j < |ops| ==> ops[i].target < ops[j].target
  }

  lemma {:induction false} BulkPointwise(ms: map<Id, Measurement>, ops: seq<Append>)
    requires Increasing(ops)
    ensures forall i :: 0 <= i < |ops| && ops[i].target in ms ==>
              BulkAppend(ms, ops)[ops[i].target] == AppendOnce(ms, ops[i])
    decreases |ops|
  {
    if ops != [] {
      var m1 := AppendIfPresent(ms, ops[0]);
      BulkPointwise(m1, ops[1..]);
      TargetsCons(ops);
      assert ops[0].target !in Targets(ops[1..]);
      forall i | 1 <= i < |ops| && ops[i].target in ms
        ensures BulkAppend(ms, ops)[ops[i].target] == AppendOnce(ms, ops[i])
      {
        assert ops[1..][i - 1] == ops[i];
      }
    }
  }

  lemma {:induction false} UpsertPointwise(s: Store, ops: seq<Append>, env: Env, w: nat)
    requires Increasing(ops) && env.failAt.None?
    ensures UpsertEach(s, ops, env, w).result.Ok?
    ensures forall i :: 0 <= i < |ops| ==>
              ops[i].target in UpsertEach(s, ops, env, w).store.measurements &&
              UpsertEach(s, ops, env, w).store.measurements[ops[i].target] == AppendOnce(s.measurements, ops[i])
    decreases |ops|
  {
    if ops != [] {
      var ms := s.measurements;
      var s1 := s.(measurements := Upsert(ms, ops[0]));
      var rest := ops[1..];
      var r1 := UpsertEach(s1, rest, env, w + 1);
      assert UpsertEach(s, ops, env, w) == r1;
      UpsertPointwise(s1, rest, env, w + 1);
      TargetsCons(ops);
      var t0 := ops[0].target;
      assert t0 !in Targets(rest);
      assert r1.store.measurements[t0] == s1.measurements[t0];
      assert s1.measurements[t0] == AppendOnce(ms, ops[0]);
      forall i | 1 <= i < |ops|
        ensures ops[i].target in r1.store.measurements
        ensures r1.store.measurements[ops[i].target] == AppendOnce(ms, ops[i])
      {
        assert rest[i - 1] == ops[i];
        assert ops[i].target != t0;
        assert AppendOnce(s1.measurements, ops[i]) == AppendOnce(ms, ops[i]);
      }
    }
  }

  lemma AddToSetIdempotent(v: seq<MeasurementValue>, x: MeasurementValue)
    ensures AddToSet(AddToSet(v, x), x) == AddToSet(v, x)
  {
  }

  lemma RowsIncreasing(devices: map<Id, Device>, rows: seq<Id>, rooms: seq<RoomMeasurement>)
    requires forall i :: 0 <= i < |rows| ==> rows[i] in devices
    requires forall i, j :: 0 <= i < j < |rows| ==> rows[i] < rows[j]
    requires PlanAppends(devices, rows, rooms).Some?
    ensures Increasing(PlanAppends(devices, rows, rooms).value)
  {
  }

  /** With no store failure, `addMeasurements` leaves every document of the
      flat's devices exactly as one set insertion of the device's value would,
      and rejects only when some device's room is missing. */
  lemma AddMeasurementsEffect(s: Store, flatId: string, rooms: seq<RoomMeasurement>, env: Env, w: nat)
    requires Valid(s) && env.failAt.None?
    requires forall d :: d in DevicesOf(s, flatId) ==> ValueFor(rooms, s.devices[d].roomNr).Some?
    ensures var r := AddMeasurements(s, flatId, rooms, env, w);
            && r.result.Ok?
            && forall d :: d in DevicesOf(s, flatId) ==>
                 d in r.store.measurements &&
                 r.store.measurements[d] == AppendOnce(s.measurements, Append(d, ValueFor(rooms, s.devices[d].roomNr).value))
  {
    var rows := DeviceRows(s, flatId);
    PlanFound(s, flatId, rooms);
    var ops := PlanAppends(s.devices, rows, rooms).value;
    BothPassesPointwise(s, flatId, rooms, env, w);
    var r := AddMeasurements(s, flatId, rooms, env, w);
    forall d | d in DevicesOf(s, flatId)
      ensures d in r.store.measurements
      ensures r.store.measurements[d] == AppendOnce(s.measurements, Append(d, ValueFor(rooms, s.devices[d].roomNr).value))
    {
      assert d in rows;
      var i :| 0 <= i < |rows| && rows[i] == d;
      assert ops[i] == Append(d, ValueFor(rooms, s.devices[d].roomNr).value);
    }
  }

  /** Both passes together append each planned value exactly once. */
  lemma BothPassesPointwise(s: Store, flatId: string, rooms: seq<RoomMeasurement>, env: Env, w: nat)
    requires Valid(s) && env.failAt.None?
    requires PlanAppends(s.devices, DeviceRows(s, flatId), rooms).Some?
    ensures var ops := PlanAppends(s.devices, DeviceRows(s, flatId), rooms).value;
            var r := AddMeasurements(s, flatId, rooms, env, w);
            && r.result.Ok?
            && forall i :: 0 <= i < |ops| ==>
                 ops[i].target in r.store.measurements &&
                 r.store.measurements[ops[i].target] == AppendOnce(s.measurements, ops[i])
  {
    var rows := DeviceRows(s, flatId);
    var ops := PlanAppends(s.devices, rows, rooms).value;
    RowsIncreasing(s.devices, rows, rooms);
    var s1 := s.(measurements := BulkAppend(s.measurements, ops));
    BulkPointwise(s.measurements, ops);
    UpsertPointwise(s1, ops, env, w + 1);
    var r := UpsertEach(s1, ops, env, w + 1);
    assert AddMeasurements(s, flatId, rooms, env, w) == r;
    forall i | 0 <= i < |ops|
      ensures r.store.measurements[ops[i].target] == AppendOnce(s.measurements, ops[i])
    {
      if ops[i].target in s.measurements {
        AddToSetIdempotent(s.measurements[ops[i].target].values, ops[i].value);
      }
    }
  }

  lemma PlanFound(s: Store, flatId: string, rooms: seq<RoomMeasurement>)
    requires Valid(s)
    requires forall d :: d in DevicesOf(s, flatId) ==> ValueFor(rooms, s.devices[d].roomNr).Some?
    ensures PlanAppends(s.devices, DeviceRows(s, flatId), rooms).Some?
  {
  }

  /** A device of the flat whose `roomNr` matches no room of the snapshot
      makes `addMeasurements` reject before any write. */
  lemma MissingRoomAborts(s: Store, flatId: string, rooms: seq<RoomMeasurement>, env: Env, w: nat, d: Id)
    requires Valid(s) && d in DevicesOf(s, flatId)
    requires ValueFor(rooms, s.devices[d].roomNr).None?
    ensures AddMeasurements(s, flatId, rooms, env, w) == Reply(s, Err(TypeError), [])
  {
    var rows := DeviceRows(s, flatId);
    assert d in rows;
    var i :| 0 <= i < |rows| && rows[i] == d;
    assert PlanAppends(s.devices, rows, rooms).None?;
  }

  /** Appending the same snapshot again, after a run that succeeded, changes
      no document. */
  lemma AddMeasurementsIdempotent(s: Store, flatId: string, rooms: seq<RoomMeasurement>, env: Env, w: nat, w': nat)
    requires Valid(s) && env.failAt.None?
    requires AddMeasurements(s, flatId, rooms, env, w).result.Ok?
    ensures var s1 := AddMeasurements(s, flatId, rooms, env, w).store;
            var r2 := AddMeasurements(s1, flatId, rooms, env, w');
            r2.result.Ok? && r2.store == s1
  {
    var s1 := AddMeasurements(s, flatId, rooms, env, w).store;
    AllRoomsFound(s, flatId, rooms, env, w);
    AddMeasurementsEffect(s, flatId, rooms, env, w);
    AddMeasurementsValid(s, flatId, rooms, env, w);
    SameDevices(s, s1, flatId);
    AddMeasurementsEffect(s1, flatId, rooms, env, w');
    var s2 := AddMeasurements(s1, flatId, rooms, env, w').store;
    forall d | d in DevicesOf(s, flatId)
      ensures d in s1.measurements && d in s2.measurements && s2.measurements[d] == s1.measurements[d]
    {
      AppendOnceNoop(s1.measurements, Append(d, ValueFor(rooms, s.devices[d].roomNr).value));
    }
    SameDocuments(s1.measurements, s2.measurements, DevicesOf(s, flatId));
  }

  lemma SameDevices(s: Store, s1: Store, flatId: string)
    requires s1.devices == s.devices
    ensures DevicesOf(s1, flatId) == DevicesOf(s, flatId)
  {
  }

  lemma AppendOnceNoop(ms: map<Id, Measurement>, a: Append)
    requires a.target in ms && a.value in ms[a.target].values
    ensures AppendOnce(ms, a) == ms[a.target]
  {
  }

  lemma SameDocuments(ms: map<Id, Measurement>, ms': map<Id, Measurement>, touched: set<Id>)
    requires Frame(ms, ms', touched)
    requires forall k :: k in touched ==> k in ms && k in ms' && ms'[k] == ms[k]
    ensures ms' == ms
  {
    assert ms'.Keys == ms.Keys;
  }

  /** `addMeasurements` keeps the store's ids below `next`. */
  lemma AddMeasurementsValid(s: Store, flatId: string, rooms: seq<RoomMeasurement>, env: Env, w: nat)
    requires Valid(s)
    ensures Valid(AddMeasurements(s, flatId, rooms, env, w).store)
  {
    var s1 := AddMeasurements(s, flatId, rooms, env, w).store;
    assert DevicesOf(s, flatId) <= s.devices.Keys;
    StillValid(s, s1, DevicesOf(s, flatId));
  }

  /** A successful `addMeasurements` found a room for every device of the flat. */
  lemma AllRoomsFound(s: Store, flatId: string, rooms: seq<RoomMeasurement>, env: Env, w: nat)
    requires Valid(s)
    requires AddMeasurements(s, flatId, rooms, env, w).result.Ok?
    ensures forall d :: d in DevicesOf(s, flatId) ==> ValueFor(rooms, s.devices[d].roomNr).Some?
  {
    forall d | d in DevicesOf(s, flatId) ensures ValueFor(rooms, s.devices[d].roomNr).Some? {
      if ValueFor(rooms, s.devices[d].roomNr).None? {
        MissingRoomAborts(s, flatId, rooms, env, w, d);
      }
    }
  }

  /** The poller never adds a document outside the ids already handed out. */
  lemma StillValid(s: Store, s1: Store, touched: set<Id>)
    requires Valid(s) && s1 == s.(measurements := s1.measurements)
    requires touched <= s.devices.Keys
    requires Frame(s.measurements, s1.measurements, touched)
    ensures Valid(s1)
  {
  }

  /** A successful `addMeasurements` holds each device's value in that
      device's document, whatever the store did before. */
  lemma AddMeasurementsAppends(s: Store, flatId: string, rooms: seq<RoomMeasurement>, env: Env, w: nat)
    requires Valid(s)
    requires AddMeasurements(s, flatId, rooms, env, w).result.Ok?
    ensures var ms := AddMeasurements(s, flatId, rooms, env, w).store.measurements;
            forall d :: d in DevicesOf(s, flatId) ==>
              ValueFor(rooms, s.devices[d].roomNr).Some? && d in ms &&
              ValueFor(rooms, s.devices[d].roomNr).value in ms[d].values
  {
    var rows := DeviceRows(s, flatId);
    var ops := PlanAppends(s.devices, rows, rooms).value;
    var r := AddMeasurements(s, flatId, rooms, env, w);
    assert r == UpsertEach(s.(measurements := BulkAppend(s.measurements, ops)), ops, env, w + 1);
    forall d | d in DevicesOf(s, flatId)
      ensures ValueFor(rooms, s.devices[d].roomNr).Some? && d in r.store.measurements
      ensures ValueFor(rooms, s.devices[d].roomNr).value in r.store.measurements[d].values
    {
      assert d in rows;
      var i :| 0 <= i < |rows| && rows[i] == d;
      assert ops[i].target == d;
    }
  }

  /** `VisitFlats` over `a + b` is `VisitFlats` over `a` followed, if that
      succeeded, by `VisitFlats` over `b`. */
  lemma {:induction false} VisitSplit(s: Store, a: seq<string>, b: seq<string>, env: Env, w: nat)
    ensures var va := VisitFlats(s, a, env, w);
            VisitFlats(s, a + b, env, w) == if va.result.Err? then va else VisitFlats(va.store, b, env, va.result.value)
    decreases |a|
  {
    if a != [] {
      assert (a + b)[0] == a[0];
      assert (a + b)[1..] == a[1..] + b;
      match env.fetch(a[0])
      case FetchFailed =>
      case Fetched(rooms) =>
        var m := AddMeasurements(s, a[0], rooms, env, w);
        if m.result.Ok? {
          VisitSplit(m.store, a[1..], b, env, m.result.value);
        }
    } else {
      assert a + b == b;
    }
  }

  /** `VisitFlats` keeps the store's ids below `next`. */
  lemma {:induction false} VisitValid(s: Store, flatIds: seq<string>, env: Env, w: nat)
    requires Valid(s)
    ensures Valid(VisitFlats(s, flatIds, env, w).store)
    decreases |flatIds|
  {
    if flatIds != [] {
      match env.fetch(flatIds[0])
      case FetchFailed =>
      case Fetched(rooms) =>
        var m := AddMeasurements(s, flatIds[0], rooms, env, w);
        AddMeasurementsValid(s, flatIds[0], rooms, env, w);
        if m.result.Ok? {
          VisitValid(m.store, flatIds[1..], env, m.result.value);
        }
    }
  }

  /** A successful visit fetched every listed flat and left each device of
      those flats holding its value. */
  lemma {:induction false} VisitAppends(s: Store, flatIds: seq<string>, env: Env, w: nat)
    requires Valid(s)
    requires VisitFlats(s, flatIds, env, w).result.Ok?
    ensures forall f :: f in flatIds ==> env.fetch(f).Fetched?
    ensures var ms := VisitFlats(s, flatIds, env, w).store.measurements;
            forall d :: d in s.devices && s.devices[d].flatId in flatIds ==>
              var rooms := env.fetch(s.devices[d].flatId).rooms;
              ValueFor(rooms, s.devices[d].roomNr).Some? && d in ms &&
              ValueFor(rooms, s.devices[d].roomNr).value in ms[d].values
    decreases |flatIds|
  {
    if flatIds != [] {
      var f0 := flatIds[0];
      var rooms0 := env.fetch(f0).rooms;
      var m := AddMeasurements(s, f0, rooms0, env, w);
      AddMeasurementsAppends(s, f0, rooms0, env, w);
      AddMeasurementsValid(s, f0, rooms0, env, w);
      VisitAppends(m.store, flatIds[1..], env, m.result.value);
      var r := VisitFlats(s, flatIds, env, w);
      assert r == VisitFlats(m.store, flatIds[1..], env, m.result.value);
      forall f | f in flatIds ensures env.fetch(f).Fetched? {
        if f != f0 { assert f in flatIds[1..]; }
      }
      forall d | d in s.devices && s.devices[d].flatId in flatIds
        ensures var rooms := env.fetch(s.devices[d].flatId).rooms;
                ValueFor(rooms, s.devices[d].roomNr).Some? && d in r.store.measurements &&
                ValueFor(rooms, s.devices[d].roomNr).value in r.store.measurements[d].values
      {
        if s.devices[d].flatId == f0 {
          assert d in DevicesOf(s, f0);
          KeptInGrowth(m.store.measurements, r.store.measurements, d, ValueFor(rooms0, s.devices[d].roomNr).value);
        } else {
          assert s.devices[d].flatId in flatIds[1..];
        }
      }
    }
  }

  /** Every flatId the cycle visits has a pull-enabled row, and every such
      flatId is visited. */
  lemma PollOrderIsPulled(s: Store)
    requires Valid(s)
    ensures forall f :: f in PollOrder(s) <==> f in PulledFlatIds(s)
  {
    var rows := PullEnabledRows(s);
    forall f | f in PulledFlatIds(s) ensures f in PollOrder(s) {
      var k :| k in s.flats && s.flats[k].pull && s.flats[k].flatId == f;
      assert k in rows;
      var i :| 0 <= i < |rows| && rows[i] == k;
      assert PollOrder(s)[i] == f;
    }
  }

  /** A successful cycle fetched every flatId with a pull-enabled row and
      left every device of those flats holding the value of its room. */
  lemma PollAppends(s: Store, env: Env)
    requires Valid(s)
    requires PollMeasurements(s, env).result.Ok?
    ensures forall f :: f in PulledFlatIds(s) ==> env.fetch(f).Fetched?
    ensures var ms := PollMeasurements(s, env).store.measurements;
            forall d :: d in PolledDevices(s) ==>
              var rooms := env.fetch(s.devices[d].flatId).rooms;
              ValueFor(rooms, s.devices[d].roomNr).Some? && d in ms &&
              ValueFor(rooms, s.devices[d].roomNr).value in ms[d].values
  {
    PollOrderIsPulled(s);
    VisitAppends(s, PollOrder(s), env, 0);
  }

  /** A cycle, however it ends, touches no document other than those of the
      devices of pull-enabled flatIds. */
  lemma PollFrame(s: Store, env: Env)
    requires Valid(s)
    ensures Frame(s.measurements, PollMeasurements(s, env).store.measurements, PolledDevices(s))
  {
    PollOrderIsPulled(s);
    var v := VisitFlats(s, PollOrder(s), env, 0);
    var touched := set k | k in s.devices && s.devices[k].flatId in PollOrder(s);
    assert touched <= PolledDevices(s);
    FrameTrans(s.measurements, v.store.measurements, PollMeasurements(s, env).store.measurements, touched, {}, PolledDevices(s));
  }

  /** The first status document is the one with the smallest id. */
  lemma FirstStatusIsMin(s: Store)
    requires Valid(s) && s.statuses != map[]
    ensures StatusRows(s) != []
    ensures StatusRows(s)[0] in s.statuses
    ensures forall k :: k in s.statuses ==> StatusRows(s)[0] <= k
  {
    var rows := StatusRows(s);
    var k0 :| k0 in s.statuses;
    assert k0 in rows;
    forall k | k in s.statuses ensures rows[0] <= k {
      assert k in rows;
    }
  }

  /** A fetch failure for the `k`-th visited flat, after the first `k`
      succeeded, ends the cycle there: the later flats and the status update
      are skipped. */
  lemma FetchFailureAbortsCycle(s: Store, env: Env, k: nat)
    requires k < |PollOrder(s)|
    requires VisitFlats(s, PollOrder(s)[..k], env, 0).result.Ok?
    requires env.fetch(PollOrder(s)[k]).FetchFailed?
    ensures PollMeasurements(s, env) == Reply(VisitFlats(s, PollOrder(s)[..k], env, 0).store, Err(FetchError), [])
  {
    VisitStopsAt(s, PollOrder(s), env, 0, k);
  }

  /** The loop stops at the first flat whose fetch fails. */
  lemma VisitStopsAt(s: Store, order: seq<string>, env: Env, w: nat, k: nat)
    requires k < |order|
    requires VisitFlats(s, order[..k], env, w).result.Ok?
    requires env.fetch(order[k]).FetchFailed?
    ensures VisitFlats(s, order, env, w) == Reply(VisitFlats(s, order[..k], env, w).store, Err(FetchError), [])
  {
    var done, rest := order[..k], order[k..];
    assert order == done + rest;
    VisitSplit(s, done, rest, env, w);
    assert rest[0] == order[k];
  }

  /** The first cycle ever creates the one status document, with a zero gap. */
  lemma PollCreatesStatus(s: Store, env: Env)
    requires Valid(s) && s.statuses == map[]
    requires PollMeasurements(s, env).result.Ok?
    ensures PollMeasurements(s, env).store.statuses == map[s.next := MeasurementStatus(Some(env.now), Some(0))]
  {
    var v := VisitFlats(s, PollOrder(s), env, 0);
    VisitValid(s, PollOrder(s), env, 0);
  }

  /** A later cycle overwrites the first status document with the current
      time and the time since its previous `lastUpdate` (0 when it had none);
      the number of status documents stays the same. */
  lemma PollUpdatesStatus(s: Store, env: Env)
    requires Valid(s) && s.statuses != map[]
    requires PollMeasurements(s, env).result.Ok?
    ensures var first := StatusRows(s)[0];
            var prev := s.statuses[first].lastUpdate;
            var st := PollMeasurements(s, env).store.statuses;
            && st.Keys == s.statuses.Keys
            && st[first] == MeasurementStatus(Some(env.now), Some(if prev.Some? then env.now - prev.value else 0))
            && forall k :: k in st && k != first ==> st[k] == s.statuses[k]
  {
    FirstStatusIsMin(s);
    var v := VisitFlats(s, PollOrder(s), env, 0);
    VisitValid(s, PollOrder(s), env, 0);
    FirstStatusIsMin(v.store);
    var a := StatusRows(s)[0];
    var b := StatusRows(v.store)[0];
    assert a <= b && b <= a;
  }

  /** A cycle keeps the store's ids below `next`. */
  lemma PollValid(s: Store, env: Env)
    requires Valid(s)
    ensures Valid(PollMeasurements(s, env).store)
  {
    var v := VisitFlats(s, PollOrder(s), env, 0);
    VisitValid(s, PollOrder(s), env, 0);
    if v.result.Ok? && StatusRows(v.store) != [] {
      assert StatusRows(v.store)[0] in v.store.statuses;
    }
  }

  /** After two successful cycles, the first status document records the
      second cycle's time and the time elapsed since the first. */
  lemma ConsecutiveCyclesGap(s: Store, env1: Env, env2: Env)
    requires Valid(s)
    requires PollMeasurements(s, env1).result.Ok?
    requires PollMeasurements(PollMeasurements(s, env1).store, env2).result.Ok?
    ensures var s1 := PollMeasurements(s, env1).store;
            var s2 := PollMeasurements(s1, env2).store;
            && StatusRows(s1) != []
            && StatusRows(s1)[0] in s2.statuses
            && s2.statuses[StatusRows(s1)[0]] == MeasurementStatus(Some(env2.now), Some(env2.now - env1.now))
  {
    var s1 := PollMeasurements(s, env1).store;
    PollValid(s, env1);
    PollStampsFirstStatus(s, env1);
    PollUpdatesStatus(s1, env2);
  }

  /** After a successful cycle the first status document carries the
      cycle's time. */
  lemma PollStampsFirstStatus(s: Store, env: Env)
    requires Valid(s)
    requires PollMeasurements(s, env).result.Ok?
    ensures var s1 := PollMeasurements(s, env).store;
            && s1.statuses != map[]
            && StatusRows(s1) != []
            && StatusRows(s1)[0] in s1.statuses
            && s1.statuses[StatusRows(s1)[0]].lastUpdate == Some(env.now)
  {
    var s1 := PollMeasurements(s, env).store;
    PollValid(s, env);
    if s.statuses == map[] {
      PollCreatesStatus(s, env);
      assert s.next in s1.statuses;
      FirstStatusIsMin(s1);
      assert StatusRows(s1)[0] == s.next;
    } else {
      PollUpdatesStatus(s, env);
      FirstStatusIsMin(s);
      FirstStatusIsMin(s1);
      var a := StatusRows(s)[0];
      var b := StatusRows(s1)[0];
      assert a <= b && b <= a;
    }
  }

  /** Visiting flats whose devices already hold their values changes nothing. */
  lemma {:induction false} VisitNoop(s: Store, flatIds: seq<string>, env: Env, w: nat)
    requires Valid(s) && env.failAt.None?
    requires forall f :: f in flatIds ==> env.fetch(f).Fetched?
    requires forall f, d :: f in flatIds && d in DevicesOf(s, f) ==>
               var rooms := env.fetch(f).rooms;
               ValueFor(rooms, s.devices[d].roomNr).Some? && d in s.measurements &&
               ValueFor(rooms, s.devices[d].roomNr).value in s.measurements[d].values
    ensures VisitFlats(s, flatIds, env, w).result.Ok?
    ensures VisitFlats(s, flatIds, env, w).store == s
    decreases |flatIds|
  {
    if flatIds != [] {
      var f0 := flatIds[0];
      var rooms := env.fetch(f0).rooms;
      AddMeasurementsEffect(s, f0, rooms, env, w);
      var m := AddMeasurements(s, f0, rooms, env, w);
      forall d | d in DevicesOf(s, f0)
        ensures d in s.measurements && d in m.store.measurements && m.store.measurements[d] == s.measurements[d]
      {
        AppendOnceNoop(s.measurements, Append(d, ValueFor(rooms, s.devices[d].roomNr).value));
      }
      SameDocuments(s.measurements, m.store.measurements, DevicesOf(s, f0));
      assert m.store == s;
      VisitNoop(s, flatIds[1..], env, m.result.value);
    }
  }

  /** Polling again with the same snapshots, after a successful cycle,
      appends nothing: only the status document changes. */
  lemma PollIdempotentOnMeasurements(s: Store, env1: Env, env2: Env)
    requires Valid(s) && env2.failAt.None? && env2.fetch == env1.fetch
    requires PollMeasurements(s, env1).result.Ok?
    ensures var s1 := PollMeasurements(s, env1).store;
            var r2 := PollMeasurements(s1, env2);
            r2.result.Ok? && r2.store.measurements == s1.measurements
  {
    var s1 := PollMeasurements(s, env1).store;
    PollValid(s, env1);
    PollAppends(s, env1);
    SamePolled(s, s1);
    RevisitNoop(s1, env2);
  }

  lemma SamePolled(s: Store, s1: Store)
    requires s1.flats == s.flats && s1.devices == s.devices
    ensures PulledFlatIds(s1) == PulledFlatIds(s) && PolledDevices(s1) == PolledDevices(s)
  {
  }

  /** A cycle over a store where every polled device already holds the
      value of its room appends nothing. */
  lemma RevisitNoop(s: Store, env: Env)
    requires Valid(s) && env.failAt.None?
    requires forall f :: f in PulledFlatIds(s) ==> env.fetch(f).Fetched?
    requires forall d :: d in PolledDevices(s) ==>
               var rooms := env.fetch(s.devices[d].flatId).rooms;
               ValueFor(rooms, s.devices[d].roomNr).Some? && d in s.measurements &&
               ValueFor(rooms, s.devices[d].roomNr).value in s.measurements[d].values
    ensures var r := PollMeasurements(s, env);
            r.result.Ok? && r.store.measurements == s.measurements
  {
    PollOrderIsPulled(s);
    forall f, d | f in PollOrder(s) && d in DevicesOf(s, f)
      ensures var rooms := env.fetch(f).rooms;
              ValueFor(rooms, s.devices[d].roomNr).Some? && d in s.measurements &&
              ValueFor(rooms, s.devices[d].roomNr).value in s.measurements[d].values
    {
      assert d in PolledDevices(s);
    }
    VisitNoop(s, PollOrder(s), env, 0);
    QuietVisitPoll(s, env);
  }

  /** When the loop changes nothing, only the status step remains. */
  lemma QuietVisitPoll(s: Store, env: Env)
    requires env.failAt.None?
    requires VisitFlats(s, PollOrder(s), env, 0).result.Ok?
    requires VisitFlats(s, PollOrder(s), env, 0).store == s
    ensures var r := PollMeasurements(s, env);
            r.result.Ok? && r.store.measurements == s.measurements
  {
  }

  lemma {:induction false} FindRoomByNumber(rooms: seq<RoomMeasurement>, rooms': seq<RoomMeasurement>, roomNr: Option<int>)
    requires |rooms'| == |rooms|
    requires forall i :: 0 <= i < |rooms| ==> rooms'[i].roomNr == rooms[i].roomNr
    ensures FindRoom(rooms', roomNr) == FindRoom(rooms, roomNr)
    decreases |rooms|
  {
    if rooms != [] {
      FindRoomByNumber(rooms[1..], rooms'[1..], roomNr);
    }
  }

  /** The meter reading's timestamp is discarded: two snapshots that differ
      only there lead `addMeasurements` to the same store and result. */
  lemma MeterTimestampDiscarded(s: Store, flatId: string, rooms: seq<RoomMeasurement>, rooms': seq<RoomMeasurement>, env: Env, w: nat)
    requires |rooms'| == |rooms|
    requires forall i :: 0 <= i < |rooms| ==>
               rooms'[i].roomNr == rooms[i].roomNr && rooms'[i].temperature == rooms[i].temperature &&
               rooms'[i].meterValue.value == rooms[i].meterValue.value
    ensures AddMeasurements(s, flatId, rooms', env, w) == AddMeasurements(s, flatId, rooms, env, w)
  {
    forall roomNr: Option<int> ensures ValueFor(rooms', roomNr) == ValueFor(rooms, roomNr) {
      FindRoomByNumber(rooms, rooms', roomNr);
    }
    var rows := DeviceRows(s, flatId);
    assert PlanAppends(s.devices, rows, rooms') == PlanAppends(s.devices, rows, rooms) by {
      PlanDependsOnValues(s.devices, rows, rooms, rooms');
    }
  }

  lemma {:induction false} PlanDependsOnValues(devices: map<Id, Device>, rows: seq<Id>, rooms: seq<RoomMeasurement>, rooms': seq<RoomMeasurement>)
    requires forall i :: 0 <= i < |rows| ==> rows[i] in devices
    requires forall roomNr: Option<int> :: ValueFor(rooms', roomNr) == ValueFor(rooms, roomNr)
    ensures PlanAppends(devices, rows, rooms') == PlanAppends(devices, rows, rooms)
    decreases |rows|
  {
    if rows != [] {
      PlanDependsOnValues(devices, rows[1..], rooms, rooms');
    }
  }
}

=== FILE: service_types.dfy ===
/** What every DeviceService workflow takes from outside the store and what it
    hands back. */
module ServiceTypes {
  import opened Wrappers
  import opened Json
  import opened DocumentStore
  import opened Telemetry

  /** The inputs a call does not compute: the provider's answer for each
      flatId, the clock in milliseconds, the k-th `uuid()` of the call, and the
      store write (numbered from 0 within the call) that the store rejects,
      if any. */
  datatype Env = Env(fetch: string -> Fetch, now: int, uuid: nat -> string, failAt: Option<nat>)

  predicate Fails(env: Env, write: nat) {
    env.failAt == Some(write)
  }

  /** Why a call rejects: the provider call failed, the store rejected a write,
      a property of undefined was read, NotFoundException, or the handler's
      RpcException for an unsupported action. */
  datatype Failure =
    | FetchError
    | StoreError
    | TypeError
    | NotFound
    | Unsupported(action: Option<Json>)

  datatype DevicesStatus = Created | Failed

  /** The payload of the `DeviceCreated` outcome event (of type 'event'), with
      its fresh id and timestamp; `flatId` is `None` when `dto.flatId` was
      undefined, which JSON serialisation drops. */
  datatype DeviceCreatedEvent = DeviceCreatedEvent(
    id: string, timestamp: int, flatId: Option<string>, devicesStatus: DevicesStatus, rooms: seq<int>)

  /** The store after the call, how the call settled, and the events it
      emitted on the bus. */
  datatype Reply<T> = Reply(store: Store, result: Result<T, Failure>, emitted: seq<DeviceCreatedEvent>)
}

=== FILE: telemetry.dfy ===
/** The telemetry provider's answer for one flat, as the services see it.

    The HTTP call itself is not modelled: its outcome is an input, either the
    `rooms` array of the response or a rejection. Dates are milliseconds and
    readings are numbers compared only for equality. */
module Telemetry {
  import opened Wrappers
  import opened DocumentStore

  datatype Reading = Reading(timestamp: int, value: int)

  /** One room of the snapshot (a RoomMeasurement). */
  datatype RoomMeasurement = RoomMeasurement(roomNr: int, temperature: Reading, meterValue: Reading)

  datatype Fetch = Fetched(rooms: seq<RoomMeasurement>) | FetchFailed

  /** `rooms.find(rm => rm.roomNr === roomNr)`: the index of the first room
      with that number. An absent `roomNr` (undefined) equals no number. */
  function FindRoom(rooms: seq<RoomMeasurement>, roomNr: Option<int>): (r: Option<nat>)
    ensures r.Some? ==> r.value < |rooms| && roomNr == Some(rooms[r.value].roomNr)
    ensures r.Some? ==> forall j :: 0 <= j < r.value ==> roomNr != Some(rooms[j].roomNr)
    ensures r.None? ==> forall j :: 0 <= j < |rooms| ==> roomNr != Some(rooms[j].roomNr)
  {
    if rooms == [] then None
    else if roomNr == Some(rooms[0].roomNr) then Some(0)
    else match FindRoom(rooms[1..], roomNr)
      case None => None
      case Some(i) => Some(i + 1)
  }

  /** The measurement value the poller stores for a room: the temperature's
      timestamp and value and the meter's value. */
  function ValueOf(room: RoomMeasurement): MeasurementValue {
    MeasurementValue(room.temperature.timestamp, room.temperature.value, room.meterValue.value)
  }

  /** The value appended for a device with the given room number, or `None`
      where the source dereferences the undefined result of `find`. */
  function ValueFor(rooms: seq<RoomMeasurement>, roomNr: Option<int>): Option<MeasurementValue> {
    match FindRoom(rooms, roomNr)
    case None => None
    case Some(i) => Some(ValueOf(rooms[i]))
  }

  /** The room numbers of a snapshot, in order. */
  function RoomNrs(rooms: seq<RoomMeasurement>): (r: seq<int>)
    ensures |r| == |rooms|
    ensures forall i :: 0 <= i < |rooms| ==> r[i] == rooms[i].roomNr
  {
    if rooms == [] then [] else [rooms[0].roomNr] + RoomNrs(rooms[1..])
  }
}

=== FILE: workflow_properties.dfy ===
/** Properties of the command workflows: what provisioning inserts and keeps
    after a failure, what decommission removes and leaves behind, and how the
    pull toggle and the device update act on the store. */
module WorkflowProperties {
  import opened Wrappers
  import opened DocumentStore
  import opened Telemetry
  import opened ServiceTypes
  import opened Workflows

  /** `first` is the flat row of `flatId` a single-document query picks. */
  predicate FirstRow(s: Store, flatId: string, first: Id) {
    && first in s.flats && s.flats[first].flatId == flatId
    && forall k :: k in s.flats && s.flats[k].flatId == flatId ==> first <= k
  }

  lemma FirstRowIsHead(s: Store, flatId: string, first: Id)
    requires Valid(s) && FirstRow(s, flatId, first)
    ensures FlatRows(s, flatId) != [] && FlatRows(s, flatId)[0] == first
  {
    SelectFirst(s.flats, (f: RegisteredFlat) => f.flatId == flatId, 0, s.next, first);
  }

  /** A flatId with a row has a first row. */
  lemma FirstRowExists(s: Store, flatId: string, k: Id)
    requires Valid(s) && k in s.flats && s.flats[k].flatId == flatId
    ensures FlatRows(s, flatId) != [] && FirstRow(s, flatId, FlatRows(s, flatId)[0])
  {
    var rows := FlatRows(s, flatId);
    assert k in rows;
    forall j | j in s.flats && s.flats[j].flatId == flatId
      ensures rows[0] <= j
    {
      assert j in rows;
    }
  }

  /** Without a store failure, provisioning settles with `true`, leaves the
      store `Provisioned` describes and emits `CREATED`. */
  lemma ProvisionStore(s: Store, flatId: string, pull: PullCast, env: Env)
    requires env.fetch(flatId).Fetched? && !Fails(env, 0) && !Fails(env, 1) && !Fails(env, 2) && pull.Cast?
    ensures var rooms := env.fetch(flatId).rooms;
            CreateOne(s, flatId, pull, env)
            == Reply(Provisioned(s, flatId, pull.value, rooms, env.uuid), Ok(true),
                     [DeviceCreatedEvent(env.uuid(|rooms|), env.now, Some(flatId), Created, RoomNrs(rooms))])
  {
  }

  /** A successful provisioning stores one row for the flat with the `pull`
      the payload carried (off when it carried none) and emits `CREATED`
      with the room numbers in the provider's order. */
  lemma ProvisionSuccess(s: Store, flatId: string, pull: PullCast, env: Env)
    requires env.fetch(flatId).Fetched? && !Fails(env, 0) && !Fails(env, 1) && !Fails(env, 2) && pull.Cast?
    ensures var rooms := env.fetch(flatId).rooms;
            var r := CreateOne(s, flatId, pull, env);
            && r.result == Ok(true)
            && |r.emitted| == 1 && r.emitted[0].devicesStatus == Created
            && (forall i :: 0 <= i < |rooms| ==> r.emitted[0].rooms[i] == rooms[i].roomNr)
            && |r.emitted[0].rooms| == |rooms|
            && r.store.flats == s.flats[s.next := RegisteredFlat(flatId, pull.value)]
            && r.store.statuses == s.statuses
  {
    ProvisionStore(s, flatId, pull, env);
  }

  /** Provisioning turns polling on for the flat exactly when its row is
      stored with `pull: true`; no other flat's polling changes. */
  lemma ProvisionPolledSet(s: Store, flatId: string, pull: PullCast, env: Env)
    requires Valid(s)
    ensures var r := CreateOne(s, flatId, pull, env).store;
            PulledFlatIds(r)
            == PulledFlatIds(s) + (if env.fetch(flatId).Fetched? && !Fails(env, 0) && pull == Cast(true) then {flatId} else {})
  {
    var r := CreateOne(s, flatId, pull, env).store;
    if env.fetch(flatId).Fetched? && !Fails(env, 0) && pull.Cast? {
      assert r.flats == s.flats[s.next := RegisteredFlat(flatId, pull.value)];
      assert s.next !in s.flats;
      forall x | x in PulledFlatIds(r)
        ensures x in PulledFlatIds(s) || (pull == Cast(true) && x == flatId)
      {
        var k :| k in r.flats && r.flats[k].pull && r.flats[k].flatId == x;
        if k != s.next {
          assert k in s.flats && s.flats[k] == r.flats[k];
        }
      }
      forall x | x in PulledFlatIds(s)
        ensures x in PulledFlatIds(r)
      {
        var k :| k in s.flats && s.flats[k].pull && s.flats[k].flatId == x;
        assert k in r.flats && r.flats[k] == s.flats[k];
      }
      if pull == Cast(true) {
        assert s.next in r.flats && r.flats[s.next].pull;
      }
    }
  }

  /** A `pull` the Boolean path cannot cast makes the flat insert reject:
      nothing is stored and the call settles with `false` after `FAILED`. */
  lemma UncastablePullStoresNothing(s: Store, flatId: string, env: Env)
    requires env.fetch(flatId).Fetched?
    ensures var r := CreateOne(s, flatId, Uncastable, env);
            && r.store == s && r.result == Ok(false)
            && r.emitted == [DeviceCreatedEvent(env.uuid(0), env.now, Some(flatId), Failed, [])]
  {
  }

  /** A bulk insert under fresh ids grows the collection by its size. */
  lemma FreshInsertSize<T>(m: map<Id, T>, r: map<Id, T>, next: Id, n: nat)
    requires forall k :: k in m ==> k < next
    requires forall k :: k in r <==> k in m || next <= k < next + n
    ensures |r| == |m| + n
  {
    assert r.Keys == m.Keys + IdRange(next, n);
    assert m.Keys !! IdRange(next, n);
  }

  /** Provisioning stores one device per room, under the ids after the flat
      row's. */
  lemma ProvisionedDeviceIds(s: Store, flatId: string, pull: bool, rooms: seq<RoomMeasurement>, uuid: nat -> string)
    requires Valid(s)
    ensures var d := Provisioned(s, flatId, pull, rooms, uuid).devices;
            forall k :: k in d <==> k in s.devices || s.next < k <= s.next + |rooms|
    ensures |Provisioned(s, flatId, pull, rooms, uuid).devices| == |s.devices| + |rooms|
  {
    var d := Provisioned(s, flatId, pull, rooms, uuid).devices;
    FreshInsertSize(s.devices, d, s.next + 1, |rooms|);
  }

  /** Each new device is named after the flat and the room and carries the
      room's number, the flat's id and its own uuid; the other devices are
      left alone. */
  lemma ProvisionedDeviceContents(s: Store, flatId: string, pull: bool, rooms: seq<RoomMeasurement>, uuid: nat -> string)
    requires Valid(s)
    ensures var d := Provisioned(s, flatId, pull, rooms, uuid).devices;
            forall k :: k in s.devices ==> d[k] == s.devices[k]
    ensures var d := Provisioned(s, flatId, pull, rooms, uuid).devices;
            forall i :: 0 <= i < |rooms| ==>
              d[s.next + 1 + i] == Device(DeviceName(flatId, rooms[i].roomNr), uuid(i), Some(rooms[i].roomNr), flatId)
  {
  }

  /** Provisioning stores one measurement document per new device, under the
      ids after the devices'. */
  lemma ProvisionedMeasurementIds(s: Store, flatId: string, pull: bool, rooms: seq<RoomMeasurement>, uuid: nat -> string)
    requires Valid(s)
    ensures var ms := Provisioned(s, flatId, pull, rooms, uuid).measurements;
            forall k :: k in ms <==> k in s.measurements || s.next + |rooms| < k <= s.next + 2 * |rooms|
    ensures |Provisioned(s, flatId, pull, rooms, uuid).measurements| == |s.measurements| + |rooms|
  {
    var ms := Provisioned(s, flatId, pull, rooms, uuid).measurements;
    FreshInsertSize(s.measurements, ms, s.next + 1 + |rooms|, |rooms|);
  }

  /** Each new measurement document is empty and names, in `deviceId`, the
      device inserted `|rooms|` ids before it; the other documents are left
      alone. */
  lemma ProvisionedMeasurementContents(s: Store, flatId: string, pull: bool, rooms: seq<RoomMeasurement>, uuid: nat -> string)
    requires Valid(s)
    ensures var ms := Provisioned(s, flatId, pull, rooms, uuid).measurements;
            forall k :: k in s.measurements ==> ms[k] == s.measurements[k]
    ensures var n := |rooms|;
            var ms := Provisioned(s, flatId, pull, rooms, uuid).measurements;
            forall k :: s.next + n < k <= s.next + 2 * n ==> k in ms && ms[k] == Measurement(Some(k - n), [])
  {
  }

  /** The new devices belong to the provisioned flat. */
  lemma ProvisionedFlatDevices(s: Store, flatId: string, pull: bool, rooms: seq<RoomMeasurement>, uuid: nat -> string)
    ensures var p := Provisioned(s, flatId, pull, rooms, uuid);
            forall k :: s.next < k <= s.next + |rooms| ==> k in DevicesOf(p, flatId)
  {
    var p := Provisioned(s, flatId, pull, rooms, uuid);
    forall k | s.next < k <= s.next + |rooms|
      ensures k in DevicesOf(p, flatId)
    {
      var i := k - s.next - 1;
      assert p.devices[s.next + 1 + i] == RoomDevice(flatId, rooms[i].roomNr, uuid(i));
    }
  }

  /** The flat row, the devices and the measurement documents provisioning
      stores are all new, and nothing else changes. */
  lemma ProvisionedValid(s: Store, flatId: string, pull: bool, rooms: seq<RoomMeasurement>, uuid: nat -> string)
    requires Valid(s)
    ensures var p := Provisioned(s, flatId, pull, rooms, uuid);
            Valid(p) && p.statuses == s.statuses && p.flats == s.flats[s.next := RegisteredFlat(flatId, pull)]
  {
  }

  /** A store failure inside the `try` is not rolled back: the writes before
      it stay, the `FAILED` event carries no rooms, and the call settles with
      `false`. */
  lemma ProvisionFailureKeepsWrites(s: Store, flatId: string, pull: PullCast, env: Env, w: nat)
    requires Valid(s) && env.fetch(flatId).Fetched? && env.failAt == Some(w) && w <= 2 && pull.Cast?
    ensures var n := |env.fetch(flatId).rooms|;
            var r := CreateOne(s, flatId, pull, env);
            && r.result == Ok(false)
            && r.emitted == [DeviceCreatedEvent(env.uuid(if w == 0 then 0 else n), env.now, Some(flatId), Failed, [])]
            && r.store.flats == (if w == 0 then s.flats else s.flats[s.next := RegisteredFlat(flatId, pull.value)])
            && (w <= 1 ==> r.store.devices == s.devices)
            && (w == 2 ==> forall k :: k in r.store.devices <==> k in s.devices || s.next < k <= s.next + n)
            && r.store.measurements == s.measurements
            && Valid(r.store)
  {
  }

  /** flatId is not unique: provisioning the same flat twice leaves two rows,
      even when the store rejects a later write of either call. */
  lemma ReprovisionDuplicatesRow(s: Store, flatId: string, pull1: PullCast, pull2: PullCast, env1: Env, env2: Env)
    requires Valid(s)
    requires env1.fetch(flatId).Fetched? && !Fails(env1, 0) && pull1.Cast?
    requires env2.fetch(flatId).Fetched? && !Fails(env2, 0) && pull2.Cast?
    ensures var s1 := CreateOne(s, flatId, pull1, env1).store;
            var s2 := CreateOne(s1, flatId, pull2, env2).store;
            && s.next < s1.next
            && s.next in FlatRows(s2, flatId) && s1.next in FlatRows(s2, flatId)
  {
    var s1 := CreateOne(s, flatId, pull1, env1).store;
    var s2 := CreateOne(s1, flatId, pull2, env2).store;
    assert s2.flats[s.next] == RegisteredFlat(flatId, pull1.value) && s2.flats[s1.next] == RegisteredFlat(flatId, pull2.value);
  }

  /** Decommissioning a flatId without a row changes nothing and rejects. */
  lemma DeleteUnknownFlat(s: Store, flatId: string, env: Env)
    requires forall k :: k in s.flats ==> s.flats[k].flatId != flatId
    ensures var r := DeleteOne(s, flatId, env);
            r == Reply(s, Err(if Fails(env, 0) then StoreError else NotFound), [])
  {
    SelectNone(s.flats, (f: RegisteredFlat) => f.flatId == flatId, 0, s.next);
  }

  /** The row is deleted before the devices are looked up: a flat without
      devices loses its first row and still rejects with NotFound. */
  lemma DeleteWithoutDevices(s: Store, flatId: string, env: Env, first: Id)
    requires Valid(s) && !Fails(env, 0) && FirstRow(s, flatId, first)
    requires DevicesOf(s, flatId) == {}
    ensures DeleteOne(s, flatId, env) == Reply(s.(flats := s.flats - {first}), Err(NotFound), [])
  {
    FirstRowIsHead(s, flatId, first);
  }

  /** A complete decommission deletes the first row of the flat only, every
      device of the flat, and the measurement documents whose id is one of
      those devices' ids. */
  lemma DeleteSuccess(s: Store, flatId: string, env: Env, first: Id)
    requires Valid(s) && !Fails(env, 0) && !Fails(env, 1) && !Fails(env, 2)
    requires FirstRow(s, flatId, first) && DevicesOf(s, flatId) != {}
    ensures var r := DeleteOne(s, flatId, env);
            var gone := DevicesOf(s, flatId);
            && r.result == Ok(true)
            && r.store == Store(s.flats - {first}, s.devices - gone, s.measurements - gone, s.statuses, s.next)
            && DevicesOf(r.store, flatId) == {}
  {
    FirstRowIsHead(s, flatId, first);
  }

  /** The `n` measurement documents after `lo + n` are keyed by ids no
      device has and each names, in `deviceId`, a device of the flat. */
  predicate DocumentsNameDevices(p: Store, flatId: string, lo: Id, n: nat)
  {
    forall j :: lo + n < j <= lo + 2 * n ==>
      && j in p.measurements && j !in p.devices
      && p.measurements[j] == Measurement(Some(j - n), [])
      && j - n in DevicesOf(p, flatId)
  }

  /** The same documents survive while the devices they name are gone. */
  predicate DocumentsOrphaned(r: Store, lo: Id, n: nat)
  {
    forall j :: lo + n < j <= lo + 2 * n ==>
      && j in r.measurements
      && r.measurements[j] == Measurement(Some(j - n), [])
      && j - n !in r.devices
  }

  /** The provisioning documents are keyed by their own id and point at the
      device through `deviceId`, but decommission deletes by the device's id:
      after provisioning and decommissioning a flat, its devices are gone and
      the empty measurement documents provisioning created remain, each still
      naming its deleted device. */
  lemma DecommissionOrphansProvisioning(s: Store, flatId: string, pull: bool, rooms: seq<RoomMeasurement>, uuid: nat -> string, env: Env)
    requires Valid(s) && |rooms| > 0
    requires !Fails(env, 0) && !Fails(env, 1) && !Fails(env, 2)
    ensures var r := DeleteOne(Provisioned(s, flatId, pull, rooms, uuid), flatId, env);
            && r.result == Ok(true)
            && DevicesOf(r.store, flatId) == {}
            && DocumentsOrphaned(r.store, s.next, |rooms|)
  {
    ProvisionedDocumentsNameDevices(s, flatId, pull, rooms, uuid);
    DeleteLeavesDocumentsOf(Provisioned(s, flatId, pull, rooms, uuid), flatId, env, s.next, s.next, |rooms|);
  }

  /** What decommission needs to know of a provisioned store: it has a row
      of the flat, and each new measurement document has an id no device
      has and names a device of the flat. */
  lemma ProvisionedDocumentsNameDevices(s: Store, flatId: string, pull: bool, rooms: seq<RoomMeasurement>, uuid: nat -> string)
    requires Valid(s)
    ensures var p := Provisioned(s, flatId, pull, rooms, uuid);
            && Valid(p) && s.next in p.flats && p.flats[s.next].flatId == flatId
            && DocumentsNameDevices(p, flatId, s.next, |rooms|)
  {
    var n := |rooms|;
    var p := Provisioned(s, flatId, pull, rooms, uuid);
    ProvisionedValid(s, flatId, pull, rooms, uuid);
    ProvisionedFlatDevices(s, flatId, pull, rooms, uuid);
    ProvisionedDeviceIds(s, flatId, pull, rooms, uuid);
    ProvisionedMeasurementContents(s, flatId, pull, rooms, uuid);
    forall j | s.next + n < j <= s.next + 2 * n
      ensures j !in p.devices && j - n in DevicesOf(p, flatId)
    {
      assert j !in s.devices;
      var k := j - n;
      assert s.next < k <= s.next + n;
    }
  }

  /** Decommission keeps every measurement document whose id is not a
      device's, in particular those that name one of the flat's devices in
      `deviceId`, while those devices go. */
  lemma DeleteLeavesDocumentsOf(p: Store, flatId: string, env: Env, row: Id, lo: Id, n: nat)
    requires Valid(p) && !Fails(env, 0) && !Fails(env, 1) && !Fails(env, 2)
    requires row in p.flats && p.flats[row].flatId == flatId && n > 0
    requires DocumentsNameDevices(p, flatId, lo, n)
    ensures var r := DeleteOne(p, flatId, env);
            && r.result == Ok(true)
            && DevicesOf(r.store, flatId) == {}
            && DocumentsOrphaned(r.store, lo, n)
  {
    FirstRowExists(p, flatId, row);
    assert p.measurements[lo + 2 * n] == Measurement(Some(lo + n), []);
    assert lo + n in DevicesOf(p, flatId);
    var gone := DevicesOf(p, flatId);
    DeleteSuccess(p, flatId, env, FlatRows(p, flatId)[0]);
    var r := DeleteOne(p, flatId, env);
    assert r.store.measurements == p.measurements - gone;
    assert r.store.devices == p.devices - gone;
    forall j | lo + n < j <= lo + 2 * n
      ensures j in r.store.measurements && r.store.measurements[j] == p.measurements[j]
      ensures j - n !in r.store.devices
    {
      assert j !in gone;
    }
  }

  /** Once the only row of a flat is gone, decommissioning it again rejects
      with NotFound and changes nothing. */
  lemma RepeatDeleteNotFound(s: Store, flatId: string, env1: Env, env2: Env, first: Id)
    requires Valid(s) && !Fails(env1, 0) && !Fails(env1, 1) && !Fails(env1, 2) && !Fails(env2, 0)
    requires FirstRow(s, flatId, first)
    requires forall k :: k in s.flats && s.flats[k].flatId == flatId ==> k == first
    ensures var s1 := DeleteOne(s, flatId, env1).store;
            DeleteOne(s1, flatId, env2) == Reply(s1, Err(NotFound), [])
  {
    if DevicesOf(s, flatId) == {} {
      DeleteWithoutDevices(s, flatId, env1, first);
    } else {
      DeleteSuccess(s, flatId, env1, first);
    }
    DeleteUnknownFlat(DeleteOne(s, flatId, env1).store, flatId, env2);
  }

  /** The toggle sets `pull` on the first row of the flatId and nothing else. */
  lemma ToggleSetsFirstRow(s: Store, flatId: string, pull: bool, env: Env, first: Id)
    requires Valid(s) && !Fails(env, 0) && FirstRow(s, flatId, first)
    ensures UpdateDevicePullState(s, flatId, pull, env).store == s.(flats := s.flats[first := RegisteredFlat(flatId, pull)])
  {
    FirstRowIsHead(s, flatId, first);
  }

  /** With one row per flatId the toggle decides whether the next poll cycle
      fetches the flat. */
  lemma ToggleDecidesPolling(s: Store, flatId: string, pull: bool, env: Env, first: Id)
    requires Valid(s) && !Fails(env, 0) && FirstRow(s, flatId, first)
    requires forall k :: k in s.flats && s.flats[k].flatId == flatId ==> k == first
    ensures flatId in PulledFlatIds(UpdateDevicePullState(s, flatId, pull, env).store) <==> pull
  {
    ToggleSetsFirstRow(s, flatId, pull, env, first);
    var s1 := UpdateDevicePullState(s, flatId, pull, env).store;
    if pull {
      assert s1.flats[first].pull;
    }
  }

  /** With a second pull-enabled row (a re-provisioned flat), switching the
      flat off does not stop the poll from fetching it. */
  lemma ToggleOffMissesDuplicate(s: Store, flatId: string, env: Env, first: Id, second: Id)
    requires Valid(s) && !Fails(env, 0) && FirstRow(s, flatId, first)
    requires second in s.flats && second != first && s.flats[second] == RegisteredFlat(flatId, true)
    ensures flatId in PulledFlatIds(UpdateDevicePullState(s, flatId, false, env).store)
  {
    ToggleSetsFirstRow(s, flatId, false, env, first);
    var s1 := UpdateDevicePullState(s, flatId, false, env).store;
    assert s1.flats[second].pull;
  }

  /** `$set` with the same DTO twice has the effect of once. */
  lemma UpdateOneIdempotent(s: Store, id: Id, dto: UpdateDeviceDto, env1: Env, env2: Env)
    requires !Fails(env1, 0) && !Fails(env2, 0) && id in s.devices
    ensures var r1 := UpdateOne(s, id, dto, env1);
            var r2 := UpdateOne(r1.store, id, dto, env2);
            r2.store == r1.store && r2.result == r1.result
  {
  }

  /** Storing the rows of an array payload adds to the pulled flatIds
      exactly those whose element had `pull: true`. */
  lemma InsertFlatsPulled(s: Store, rows: seq<Option<Element>>)
    requires Valid(s) && AllStorable(rows)
    ensures PulledFlatIds(s.(flats := InsertFlats(s.flats, s.next, rows, |rows|))) == PulledFlatIds(s) + PulledElements(rows)
  {
    var r := s.(flats := InsertFlats(s.flats, s.next, rows, |rows|));
    forall x | x in PulledFlatIds(r)
      ensures x in PulledFlatIds(s) + PulledElements(rows)
    {
      var k :| k in r.flats && r.flats[k].pull && r.flats[k].flatId == x;
      if k in s.flats {
        assert r.flats[k] == s.flats[k];
      } else {
        assert s.next <= k < s.next + |rows|;
        var i := k - s.next;
        assert k == s.next + i;
        assert rows[i].value.pull == Cast(true);
      }
    }
    forall x | x in PulledFlatIds(s)
      ensures x in PulledFlatIds(r)
    {
      var k :| k in s.flats && s.flats[k].pull && s.flats[k].flatId == x;
      assert k in r.flats && r.flats[k] == s.flats[k];
    }
    forall x | x in PulledElements(rows)
      ensures x in PulledFlatIds(r)
    {
      var i :| 0 <= i < |rows| && rows[i].Some? && rows[i].value.pull == Cast(true) && rows[i].value.flatId == x;
      assert r.flats[s.next + i] == RegisteredFlat(x, true);
    }
  }

  /** An array payload provisions no device and no measurement document.
      The rows it stores keep the `pull` each element carried, so the poll
      reaches the flatIds it reached before plus, once the rows are stored,
      the flatIds whose element had `pull: true`, and with them the devices
      already registered under those flatIds. */
  lemma ArrayProvisioningPolledSet(s: Store, rows: seq<Option<Element>>, env: Env)
    requires Valid(s)
    ensures var r := CreateFromArray(s, rows, env).store;
            var added := if env.fetch(Undefined).Fetched? && !Fails(env, 0) && AllStorable(rows) then PulledElements(rows) else {};
            && DevicesOf(r, Undefined) == DevicesOf(s, Undefined)
            && PulledFlatIds(r) == PulledFlatIds(s) + added
            && PolledDevices(r) == PolledDevices(s) + (set k | k in s.devices && s.devices[k].flatId in added)
  {
    var r := CreateFromArray(s, rows, env).store;
    if env.fetch(Undefined).Fetched? && !Fails(env, 0) && AllStorable(rows) {
      InsertFlatsPulled(s, rows);
      assert PulledFlatIds(r) == PulledFlatIds(s.(flats := InsertFlats(s.flats, s.next, rows, |rows|)));
    }
  }
}

=== FILE: workflows.dfy ===
/** The command workflows of DeviceService: provisioning (`createOne`),
    decommission (`deleteOne`), the pull toggle (`updateDevicePullState`) and
    the device field update (`updateOne`).

    Store writes of one call are numbered from 0 in the order the source
    issues them; `Env.failAt` picks the one the store rejects. Nothing is
    rolled back. */
module Workflows {
  import opened Wrappers
  import opened DocumentStore
  import opened Telemetry
  import opened ServiceTypes

  function DigitChar(d: nat): char
    requires d < 10
  {
    ('0' as int + d) as char
  }

  /** A non-negative integer in decimal, as a template literal prints it. */
  function NatToString(n: nat): (r: string)
    ensures |r| >= 1
    decreases n
  {
    if n < 10 then [DigitChar(n)] else NatToString(n / 10) + [DigitChar(n % 10)]
  }

  function IntToString(i: int): string {
    if i < 0 then "-" + NatToString(-i) else NatToString(i)
  }

  /** `device-${flatId}-room-${roomNr}`. */
  function DeviceName(flatId: string, roomNr: int): string {
    "device-" + flatId + "-room-" + IntToString(roomNr)
  }

  /** The ids `lo, …, lo + n - 1` that `n` consecutive inserts receive. */
  function IdRange(lo: Id, n: nat): (r: set<Id>)
    ensures forall k :: k in r <==> lo <= k < lo + n
    ensures |r| == n
  {
    if n == 0 then {} else IdRange(lo, n - 1) + {lo + n - 1}
  }

  /** The device provisioning stores for room `roomNr` of a flat. */
  function RoomDevice(flatId: string, roomNr: int, deviceId: string): (d: Device)
    ensures d.name == DeviceName(flatId, roomNr)
    ensures d.flatId == flatId && d.roomNr == Some(roomNr) && d.deviceId == deviceId
  {
    Device(DeviceName(flatId, roomNr), deviceId, Some(roomNr), flatId)
  }

  /** The device bulk insert into `devices` of the first `count` rooms: the
      `i`-th room becomes the device with id `next + i` and the `i`-th uuid. */
  function InsertDevices(devices: map<Id, Device>, next: Id, flatId: string, rooms: seq<RoomMeasurement>, uuid: nat -> string, count: nat): (r: map<Id, Device>)
    requires count <= |rooms|
    ensures forall k :: k in r <==> k in devices || next <= k < next + count
    ensures forall k :: k in devices && !(next <= k < next + count) ==> r[k] == devices[k]
    ensures forall i :: 0 <= i < count ==> r[next + i] == RoomDevice(flatId, rooms[i].roomNr, uuid(i))
    decreases count
  {
    if count == 0 then devices
    else
      var i := count - 1;
      InsertDevices(devices, next, flatId, rooms, uuid, i)[next + i := RoomDevice(flatId, rooms[i].roomNr, uuid(i))]
  }

  /** The measurement bulk insert into `measurements` for the `n` devices
      inserted under the ids `firstDevice, firstDevice + 1, …`: one empty
      document with id `next + i` naming the `i`-th of them in `deviceId`. */
  function InsertMeasurements(measurements: map<Id, Measurement>, next: Id, firstDevice: Id, n: nat): (r: map<Id, Measurement>)
    ensures forall k :: k in r <==> k in measurements || next <= k < next + n
    ensures forall k :: k in measurements && !(next <= k < next + n) ==> r[k] == measurements[k]
    ensures forall k :: next <= k < next + n ==> r[k] == Measurement(Some(firstDevice + (k - next)), [])
    decreases n
  {
    if n == 0 then measurements
    else InsertMeasurements(measurements, next, firstDevice, n - 1)[next + n - 1 := Measurement(Some(firstDevice + n - 1), [])]
  }

  function FailedEvent(flatId: Option<string>, env: Env, id: nat): DeviceCreatedEvent {
    DeviceCreatedEvent(env.uuid(id), env.now, flatId, Failed, [])
  }

  /** `createOne(dto)` on an object `dto`: `pull` is what the Boolean path
      makes of `dto.pull`. The fetch happens before the `try`, so its failure
      rejects without an event; a store failure inside the `try`, including
      a `pull` that cannot be cast, emits `FAILED` and settles with `false`. */
  function CreateOne(s: Store, flatId: string, pull: PullCast, env: Env): (r: Reply<bool>)
    ensures r.result.Err? <==> env.fetch(flatId).FetchFailed?
    ensures r.result.Err? ==> r == Reply(s, Err(FetchError), [])
    ensures r.result.Ok? ==> |r.emitted| == 1 && r.emitted[0].flatId == Some(flatId)
    ensures r.result == Ok(true) <==> r.result.Ok? && r.emitted[0].devicesStatus == Created
    ensures if env.fetch(flatId).Fetched? && !Fails(env, 0) && pull.Cast?
            then r.store.flats == s.flats[s.next := RegisteredFlat(flatId, pull.value)] && s.next < r.store.next
            else r.store == s
    ensures r.store.statuses == s.statuses
    ensures Valid(s) ==> Valid(r.store)
  {
    if env.fetch(flatId).FetchFailed? then Reply(s, Err(FetchError), [])
    else
      var rooms := env.fetch(flatId).rooms;
      var n := |rooms|;
      if Fails(env, 0) || pull.Uncastable? then
        Reply(s, Ok(false), [FailedEvent(Some(flatId), env, 0)])
      else if Fails(env, 1) then
        Reply(s.(flats := s.flats[s.next := RegisteredFlat(flatId, pull.value)], next := s.next + 1), Ok(false), [FailedEvent(Some(flatId), env, n)])
      else if Fails(env, 2) then
        Reply(FlatAndDevices(s, flatId, pull.value, rooms, env.uuid), Ok(false), [FailedEvent(Some(flatId), env, n)])
      else
        Reply(Provisioned(s, flatId, pull.value, rooms, env.uuid), Ok(true),
              [DeviceCreatedEvent(env.uuid(n), env.now, Some(flatId), Created, RoomNrs(rooms))])
  }

  /** The store after the flat insert and the device bulk insert. */
  function FlatAndDevices(s: Store, flatId: string, pull: bool, rooms: seq<RoomMeasurement>, uuid: nat -> string): Store {
    s.(flats := s.flats[s.next := RegisteredFlat(flatId, pull)],
       devices := InsertDevices(s.devices, s.next + 1, flatId, rooms, uuid, |rooms|),
       next := s.next + 1 + |rooms|)
  }

  /** The store after all three inserts: the flat row takes the next id, the
      devices the `|rooms|` after it, then their measurement documents. */
  function Provisioned(s: Store, flatId: string, pull: bool, rooms: seq<RoomMeasurement>, uuid: nat -> string): Store {
    var n := |rooms|;
    Store(s.flats[s.next := RegisteredFlat(flatId, pull)],
          InsertDevices(s.devices, s.next + 1, flatId, rooms, uuid, |rooms|),
          InsertMeasurements(s.measurements, s.next + 1 + n, s.next + 1, n),
          s.statuses,
          s.next + 1 + 2 * n)
  }

  /** What `dto.flatId` reads on an array, as the provider URL prints it. */
  const Undefined := "undefined"

  /** An object element of an array payload: its flatId and what the
      Boolean path makes of its `pull`. */
  datatype Element = Element(flatId: string, pull: PullCast)

  /** Every element of an array payload is an object carrying a flatId whose
      `pull` casts, so `create` can store it. */
  predicate AllStorable(rows: seq<Option<Element>>) {
    forall i :: 0 <= i < |rows| ==> rows[i].Some? && rows[i].value.pull.Cast?
  }

  /** The flatIds of the array elements whose `pull` casts to true. */
  function PulledElements(rows: seq<Option<Element>>): set<string> {
    set i | 0 <= i < |rows| && rows[i].Some? && rows[i].value.pull == Cast(true) :: rows[i].value.flatId
  }

  /** `create(rows)` on an array: the first `count` elements become flat rows
      under the ids `next, next + 1, …`, each with its own flatId and cast
      `pull`. */
  function InsertFlats(flats: map<Id, RegisteredFlat>, next: Id, rows: seq<Option<Element>>, count: nat): (r: map<Id, RegisteredFlat>)
    requires count <= |rows| && AllStorable(rows)
    ensures forall k :: k in r <==> k in flats || next <= k < next + count
    ensures forall k :: k in flats && !(next <= k < next + count) ==> r[k] == flats[k]
    ensures forall i :: 0 <= i < count ==> r[next + i] == RegisteredFlat(rows[i].value.flatId, rows[i].value.pull.value)
    decreases count
  {
    if count == 0 then flats
    else
      var i := count - 1;
      InsertFlats(flats, next, rows, i)[next + i := RegisteredFlat(rows[i].value.flatId, rows[i].value.pull.value)]
  }

  /** `createOne(dto)` when the validated `data` is an array. Each element is
      `Some` of the flatId and cast `pull` for an object and `None` for a
      nested array, which has no `flatId` of its own.

      `dto.flatId` is undefined, so the provider is asked for the flat
      `undefined`. `create(dto)` stores one row per element and rejects when
      an element lacks the required flatId or carries a `pull` that cannot be
      cast. The device documents then carry
      no flatId, which the Device schema requires, so a non-empty device bulk
      insert always rejects. Only an empty snapshot lets the call run to the
      end, where it emits `CREATED` with no flatId and no rooms. */
  function CreateFromArray(s: Store, rows: seq<Option<Element>>, env: Env): (r: Reply<bool>)
    ensures r.result.Err? <==> env.fetch(Undefined).FetchFailed?
    ensures r.result.Err? ==> r == Reply(s, Err(FetchError), [])
    ensures r.result.Ok? ==> |r.emitted| == 1 && r.emitted[0].flatId == None && r.emitted[0].rooms == []
    ensures r.result == Ok(true) <==> r.result.Ok? && r.emitted[0].devicesStatus == Created
    ensures r.result == Ok(true) ==> env.fetch(Undefined).rooms == []
    ensures r.store.devices == s.devices && r.store.measurements == s.measurements && r.store.statuses == s.statuses
    ensures if env.fetch(Undefined).Fetched? && !Fails(env, 0) && AllStorable(rows)
            then r.store.flats == InsertFlats(s.flats, s.next, rows, |rows|) && r.store.next == s.next + |rows|
            else r.store == s
    ensures Valid(s) ==> Valid(r.store)
  {
    if env.fetch(Undefined).FetchFailed? then Reply(s, Err(FetchError), [])
    else
      var n := |env.fetch(Undefined).rooms|;
      if Fails(env, 0) || !AllStorable(rows) then Reply(s, Ok(false), [FailedEvent(None, env, 0)])
      else
        var s1 := s.(flats := InsertFlats(s.flats, s.next, rows, |rows|), next := s.next + |rows|);
        if n > 0 || Fails(env, 1) || Fails(env, 2) then Reply(s1, Ok(false), [FailedEvent(None, env, n)])
        else Reply(s1, Ok(true), [DeviceCreatedEvent(env.uuid(0), env.now, None, Created, [])])
  }

  /** `deleteOne(flatId)`: delete the first flat row of the flatId, then the
      documents keyed by its devices' ids, then the devices. */
  function DeleteOne(s: Store, flatId: string, env: Env): (r: Reply<bool>)
    ensures r.result.Ok? ==> r.result.value
    ensures r.store.statuses == s.statuses && r.emitted == []
    ensures r.store.flats.Keys <= s.flats.Keys && |s.flats.Keys - r.store.flats.Keys| <= 1
    ensures forall k :: k in r.store.flats ==> r.store.flats[k] == s.flats[k]
    ensures forall k :: k in s.flats && k !in r.store.flats ==> s.flats[k].flatId == flatId
    ensures forall k :: k in s.devices && k !in r.store.devices ==> s.devices[k].flatId == flatId
    ensures forall k :: k in r.store.devices ==> k in s.devices && r.store.devices[k] == s.devices[k]
    ensures forall k :: k in r.store.measurements ==> k in s.measurements && r.store.measurements[k] == s.measurements[k]
    ensures forall k :: k in s.measurements && k !in r.store.measurements ==> k in DevicesOf(s, flatId)
    ensures r.store.next == s.next
  {
    if Fails(env, 0) then Reply(s, Err(StoreError), [])
    else
      var rows := FlatRows(s, flatId);
      if rows == [] then Reply(s, Err(NotFound), [])
      else
        var s1 := s.(flats := s.flats - {rows[0]});
        var devices := DevicesOf(s1, flatId);
        if devices == {} then Reply(s1, Err(NotFound), [])
        else if Fails(env, 1) then Reply(s1, Err(StoreError), [])
        else
          var s2 := s1.(measurements := s1.measurements - devices);
          if Fails(env, 2) then Reply(s2, Err(StoreError), [])
          else Reply(s2.(devices := s2.devices - devices), Ok(true), [])
  }

  /** `updateDevicePullState(flatId, pull)`: `updateOne({ flatId }, { $set: { pull } })`,
      which settles with `true` whether or not a row matched. */
  function UpdateDevicePullState(s: Store, flatId: string, pull: bool, env: Env): (r: Reply<bool>)
    ensures r.result.Err? <==> Fails(env, 0)
    ensures r.result.Err? ==> r.store == s
    ensures r.result.Ok? ==> r.result.value
    ensures r.store == s.(flats := r.store.flats) && r.emitted == []
    ensures r.store.flats.Keys == s.flats.Keys
    ensures forall k :: k in s.flats ==> r.store.flats[k].flatId == s.flats[k].flatId
    ensures forall k :: k in s.flats && r.store.flats[k] != s.flats[k] ==> s.flats[k].flatId == flatId && r.store.flats[k].pull == pull
    ensures forall k, k' :: k in s.flats && k' in s.flats && r.store.flats[k] != s.flats[k] && r.store.flats[k'] != s.flats[k'] ==> k == k'
    ensures (forall k :: k in s.flats ==> s.flats[k].flatId != flatId) ==> r.store == s
  {
    if Fails(env, 0) then Reply(s, Err(StoreError), [])
    else
      var rows := FlatRows(s, flatId);
      if rows == [] then Reply(s, Ok(true), [])
      else Reply(s.(flats := s.flats[rows[0] := s.flats[rows[0]].(pull := pull)]), Ok(true), [])
  }

  /** The fields of an UpdateDeviceDto; both are optional. */
  datatype UpdateDeviceDto = UpdateDeviceDto(deviceId: Option<string>, name: Option<string>)

  /** `$set: dto`: the fields the DTO carries replace the device's. */
  function ApplyDto(d: Device, dto: UpdateDeviceDto): Device {
    d.(deviceId := if dto.deviceId.Some? then dto.deviceId.value else d.deviceId,
       name := if dto.name.Some? then dto.name.value else d.name)
  }

  /** `updateOne(id, dto)`: `findOneAndUpdate` by `_id`, returning the
      updated device, or NotFoundException when there is none. */
  function UpdateOne(s: Store, id: Id, dto: UpdateDeviceDto, env: Env): (r: Reply<Device>)
    ensures r.result.Ok? <==> !Fails(env, 0) && id in s.devices
    ensures r.result.Err? ==> r.store == s && r.result.error == (if Fails(env, 0) then StoreError else NotFound)
    ensures r.result.Ok? ==> r.store == s.(devices := s.devices[id := r.result.value])
    ensures r.result.Ok? ==> var d := r.result.value;
              && d.roomNr == s.devices[id].roomNr && d.flatId == s.devices[id].flatId
              && d.name == (if dto.name.Some? then dto.name.value else s.devices[id].name)
              && d.deviceId == (if dto.deviceId.Some? then dto.deviceId.value else s.devices[id].deviceId)
    ensures r.emitted == []
  {
    if Fails(env, 0) then Reply(s, Err(StoreError), [])
    else if id !in s.devices then Reply(s, Err(NotFound), [])
    else
      var d := ApplyDto(s.devices[id], dto);
      Reply(s.(devices := s.devices[id := d]), Ok(d), [])
  }
}

=== FILE: wrappers.dfy ===
/** Absent values and failing calls.
    `Option` stands for a JavaScript property that may be undefined, `Result`
    for a promise that resolves to a value or rejects with an error. */
module Wrappers {

  datatype Option<+T> = None | Some(value: T)

  datatype Result<+T, +E> = Ok(value: T) | Err(error: E)
}
